=== FILE: README.md ===
# Bioreactor hub: device layer, tokens and control-panel state

A Dafny model of the core of the bioreactor control plane. It covers:

- the hub's device layer (`device.rs`, `test_bioreactor.rs`, `network_bioreactor.rs`). This is the
  three-valued `DeviceStatus`, the device capability, the fixed id-to-device map `DeviceDepot`, the
  virtual `TestReactor`, and the `NetworkReactor` with its shared `DeviceInfo` block and listener thread;
- the conversions and sanity check of the hub configuration (`config.rs`);
- the API token format and the request guard (`api_auth.rs`);
- the control panel's credential list (`credentials.ts`) and its login state (`active_hub.ts`);
- the raw-reading decode of the HTU21D example firmware (`example_hifive/src/main.rs`, lines 92-98).

Each source file is one module. There are three exceptions:

- `device.rs` is split into `Device` (the status type) and `Depot` (the capability and the map). The
  two device modules import `DeviceStatus`, and `Depot` imports both device modules. Keeping the status
  type in one module of its own avoids an import cycle.
- `Wrappers` holds Option and Result.
- `Strings` holds the standard-library text operations the token format uses: decimal rendering of a
  `u64`, `str::parse::<u64>` (an optional `+`, then digits, below 2^64) and `str::split`.

Form follows the source:

- Objects the source updates in place are classes: `TestReactor`, `DeviceInfo`, `NetworkReactor`,
  `CredentialsStore` and `ActiveHub`. Each method states its new state in terms of the old one.
- The depot, the configuration, the token code and the firmware decode are functions over values.
- The `Bioreactor` trait becomes the closed variant `Depot.BioreactorDevice` = `Test(TestReactor) |
  Network(NetworkReactor)`. It dispatches the trait's operations, including `get_current_status_extra`,
  which both implementations define although the trait does not list it.

The network reactor's listener thread is a phase (`LoopTop`, `Accepting`, `Backoff`, `Connected`,
`Stopped`) plus one step per wake-up. The step is `NetworkReactor.ListenerStep`, proved against the
pure `Step`. The results of `bind` and `accept` are inputs. An interleaving of the thread with request
calls and `abort` is a sequence of `Event`s. For every such sequence the lemmas prove the following:

- the status stays `Offline`;
- the target stays `Inactive`;
- nothing becomes pending;
- every status request is refused.

This holds because the only status the code ever writes is `Offline` (lines 113 and 149).

Where the source's own comments promise more than its code does, the model follows the code:

- `DeviceDepot::new` does not check that device ids are unique; the TODO at `device.rs:70` says the
  check is still to be written. With duplicates, the last device with an id is the one kept.
- The doc comment on `NetworkReactor::abort` (`network_bioreactor.rs:135`) says it blocks until the
  background thread is stopped. The listener checks the abort flag only while connected, and a failed
  `accept` retries without looking at it. So an aborted listener returns only after its next accepted
  connection.
- The doc comment on `DeviceStatus` (`device.rs:17-18`) says `Offline` is resolved automatically once
  the device is properly reconnected. No code path sets a network reactor to `Inactive` or `Active`,
  so `Offline` is never cleared.

## Model

| member | source | states |
|---|---|---|
| `Depot.BioreactorDevice.SetTargetStatus` | control-plane/hub/src/device.rs:50-51 | For either device kind, `Offline` is always refused. A valid device succeeds exactly when the request is not `Offline` and the device is not `Offline`. A refusal changes nothing visible. A success sets the target, and for a test device the current status too. |
| `Depot.DeviceDepot.New` | control-plane/hub/src/device.rs:69-76 | Every stored device is keyed by its own id. |
| `Depot.NewKeys` | control-plane/hub/src/device.rs:69-76 | The depot's keys are exactly the ids of the input devices. |
| `Depot.NewKeepsLast` | control-plane/hub/src/device.rs:71-74 | When an id repeats, the depot keeps the last device with that id. |
| `Depot.NewOfUniqueIds` | control-plane/hub/src/device.rs:69-81 | With unique ids, the depot has one entry per input device, each under its own id. |
| `Depot.DeviceDepot.DeviceIds` | control-plane/hub/src/device.rs:79-81 | Returns every key exactly once: no duplicates, same size as the map, in any order. |
| `Depot.DeviceDepot.GetDevice` | control-plane/hub/src/device.rs:89-95 | Returns `None` exactly for an unknown id. Otherwise it returns the device stored under that id, whose own id is that id. |
| `Depot.DeviceDepot.GetDeviceMut` | control-plane/hub/src/device.rs:103-109 | Returns `None` exactly for an unknown id. The returned device shares no state with any other entry. |
| `Depot.DeviceDepot.SetTargetStatusOf` | control-plane/hub/src/api_device.rs:73-85 | A request routed by id through `get_device_mut`. An unknown id gives `None` and changes nothing. A refused request leaves the addressed device's observable state unchanged, and a valid device stays valid. No other device's observable state changes. The depot's key set is immutable. |
| `Config.Validate` | control-plane/hub/src/config.rs:80-85 | Fails, with the fixed message, exactly when the server password's UTF-8 byte length is below 16. |
| `Config.ValidateOnlyReadsPassword` | control-plane/hub/src/config.rs:80-85 | The verdict depends on the server password alone. |
| `Config.ValidateByCharCount` | control-plane/hub/src/config.rs:81 | 16 or more characters always pass. 3 or fewer always fail, because the length is counted in bytes. |
| `Config.Utf8Len` | control-plane/hub/src/config.rs:81 | The byte length lies between one and four bytes per character. |
| `Config.ToTestDevice` | control-plane/hub/src/config.rs:90-95 | `Some` exactly for a `test_device` descriptor, carrying its metadata unchanged. |
| `Config.ToNetworkDevice` | control-plane/hub/src/config.rs:97-110 | `Some` exactly for a `network_device` descriptor, with the same metadata and port. A missing address becomes 127.0.0.1 and a present one is kept. |
| `Config.ExactlyOneProjection` | control-plane/hub/src/config.rs:88-110 | Every descriptor yields exactly one of the two device configurations, with its own metadata. |
| `TestBioreactor.TestReactor.FromConfig` | control-plane/hub/src/test_bioreactor.rs:17-22 | A new test reactor carries the config's metadata and is `Inactive`, hence never `Offline`. |
| `TestBioreactor.TestReactor.GetCurrentStatusExtra` | control-plane/hub/src/test_bioreactor.rs:42-44 | A test reactor never has a diagnostic text. |
| `TestBioreactor.TestReactor.GetTargetStatus` | control-plane/hub/src/test_bioreactor.rs:38-48 | Target and current status are always equal. |
| `TestBioreactor.TestReactor.SetTargetStatus` | control-plane/hub/src/test_bioreactor.rs:50-57 | `Offline` gives the fixed error and leaves the status alone. Any other status succeeds and becomes both current and target. The reactor is never `Offline` before or after. |
| `NetworkBioreactor.AddressText` | control-plane/hub/src/network_bioreactor.rs:115-117 | An IPv4 address displays as text with no `:` that splits at `.` into exactly the four octets' decimal renderings. |
| `NetworkBioreactor.BindFailedText` | control-plane/hub/src/network_bioreactor.rs:113-119 | The bind-failure diagnostic is "Cannot open socket on ", the address, `:`, the decimal port, " (", the I/O error text and ").". |
| `NetworkBioreactor.SocketErrorText` | control-plane/hub/src/network_bioreactor.rs:155 | The accept-failure diagnostic quotes the I/O error text verbatim between a fixed prefix and a fixed suffix. |
| `NetworkBioreactor.DiagnosticsDistinct` | control-plane/hub/src/network_bioreactor.rs:106-164 | The five diagnostics the reactor writes are pairwise different: not initialised, bind failure, waiting, socket error, connecting. |
| `NetworkBioreactor.WithTarget` | control-plane/hub/src/network_bioreactor.rs:67-75 | The target becomes the argument. The pending set only grows, and it gains the target mark exactly when the target changed. Nothing else changes. |
| `NetworkBioreactor.WithTargetIdempotent` | control-plane/hub/src/network_bioreactor.rs:67-75 | Setting the same target twice equals setting it once: the pending mark is not duplicated. |
| `NetworkBioreactor.SetTarget` | control-plane/hub/src/network_bioreactor.rs:206-215 | `Offline` is refused first. Then any request is refused while the device is `Offline`. Otherwise the target is recorded. A refusal leaves the state unchanged. |
| `NetworkBioreactor.Initial` | control-plane/hub/src/network_bioreactor.rs:105-133 | After construction the device is `Offline`, target `Inactive`, not aborted, nothing pending. A failed bind stops the listener, and the diagnostic names the address, port and error. A successful bind leaves the listener about to start, and the diagnostic still reads "Device not initialized.". |
| `NetworkBioreactor.Step` | control-plane/hub/src/network_bioreactor.rs:144-179 | One listener wake-up writes no status other than `Offline`. It never touches the abort flag, the target or the pending set. At the loop top it writes `Offline` and "Waiting for a connection.". A failed `accept` writes the socket-error text and backs off. An accepted connection writes "Connecting...". A backoff returns to the loop top and changes nothing else. A connected listener without the flag stays as it is. It returns only from the connected loop with the flag set, and there it does return. Once stopped, it stays put. |
| `NetworkBioreactor.RunKeepsQuiet` | control-plane/hub/src/network_bioreactor.rs:113-149 | Under any interleaving of listener steps, requests and aborts, the state stays `Offline` / `Inactive` with nothing pending. |
| `NetworkBioreactor.EveryRequestRefused` | control-plane/hub/src/network_bioreactor.rs:206-215 | From construction on, whatever happens, a network reactor is `Offline` and refuses every status request. |
| `NetworkBioreactor.AbortSticks` | control-plane/hub/src/network_bioreactor.rs:92-98 | The abort flag is monotonic: once set, it stays set. |
| `NetworkBioreactor.StopsOnlyAfterAbort` | control-plane/hub/src/network_bioreactor.rs:167-175 | A stopped listener stays stopped. A running one ends up stopped only with the abort flag set. |
| `NetworkBioreactor.BindFailureIsPermanent` | control-plane/hub/src/network_bioreactor.rs:111-124 | After a failed bind the device stays `Offline` with the bind failure as its diagnostic, whatever happens later. |
| `NetworkBioreactor.AbortTakesEffectOnceConnected` | control-plane/hub/src/network_bioreactor.rs:148-176 | An aborted listener that is waiting still backs off and retries after an accept error. After an accepted connection it stops at the first poll. |
| `NetworkBioreactor.DeviceInfo.constructor` | control-plane/hub/src/network_bioreactor.rs:42-50 | Starts not aborted, `Offline`, target `Inactive`, no diagnostic, nothing pending. |
| `NetworkBioreactor.DeviceInfo.SetDeviceStatus` | control-plane/hub/src/network_bioreactor.rs:52-55 | Overwrites the status and nothing else. |
| `NetworkBioreactor.DeviceInfo.SetDeviceTargetStatus` | control-plane/hub/src/network_bioreactor.rs:67-75 | The new state is `WithTarget` of the old one. |
| `NetworkBioreactor.DeviceInfo.SetDeviceStatusExtra` | control-plane/hub/src/network_bioreactor.rs:77-80 | Sets the diagnostic to the message and nothing else. |
| `NetworkBioreactor.DeviceInfo.ClearDeviceStatusExtra` | control-plane/hub/src/network_bioreactor.rs:82-85 | Clears the diagnostic and nothing else. |
| `NetworkBioreactor.DeviceInfo.SetAborted` | control-plane/hub/src/network_bioreactor.rs:96-98 | Sets the abort flag and nothing else. |
| `NetworkBioreactor.NetworkReactor.FromConfig` | control-plane/hub/src/network_bioreactor.rs:105-133 | The new reactor carries the config's metadata and a fresh state block equal to `Initial`, and satisfies the invariant. |
| `NetworkBioreactor.NetworkReactor.ListenerStep` | control-plane/hub/src/network_bioreactor.rs:144-179 | The new state is `Step` of the old one, and the invariant is preserved. |
| `NetworkBioreactor.NetworkReactor.Abort` | control-plane/hub/src/network_bioreactor.rs:136-141 | Raises the abort flag, changes nothing else, and keeps the invariant. |
| `NetworkBioreactor.NetworkReactor.SetTargetStatus` | control-plane/hub/src/network_bioreactor.rs:206-215 | The result and the new state are `SetTarget` of the old state. On a valid reactor every request is refused. |
| `Strings.NatToString` | control-plane/hub/src/api_auth.rs:113 | The rendering is all digits, denotes the number, and has no leading zero. |
| `Strings.ParseU64` | control-plane/hub/src/api_auth.rs:95 | Parses exactly the strings that are one or more decimal digits, optionally after a single `+`, whose value is below 2^64. The result is the value of those digits. |
| `Strings.ParseRendered` | control-plane/hub/src/api_auth.rs:95-113 | Parsing the rendering of any `u64` gives the number back. |
| `Strings.Split` | control-plane/hub/src/api_auth.rs:94 | Splitting always yields at least one part. |
| `Strings.SplitJoined` | control-plane/hub/src/api_auth.rs:94-102 | Two `;`-free strings joined by `;` split back into exactly those two. |
| `ApiAuth.Timestamp` | control-plane/hub/src/api_auth.rs:130-136 | Whole milliseconds since the epoch, rounded down, below 2^64. |
| `ApiAuth.TimeOf` | control-plane/hub/src/api_auth.rs:139-141 | Converting milliseconds to a time and back gives the same milliseconds. |
| `ApiAuth.NewToken` | control-plane/hub/src/api_auth.rs:82-87 | A new token expires at now plus the duration and passes `check_secret` for its own secret. |
| `ApiAuth.ParsePlaintext` | control-plane/hub/src/api_auth.rs:91-109 | Yields a token exactly when the text has two `;`-separated parts and the first parses as a `u64`. The hash is the second part. The expiry is exactly `time(ms)`, the epoch plus the parsed number of milliseconds. |
| `ApiAuth.TryFromBase64` | control-plane/hub/src/api_auth.rs:91-109 | Undecodable or non-UTF-8 input gives `None`. Otherwise the result is the parse of the decoded text. |
| `ApiAuth.Render` | control-plane/hub/src/api_auth.rs:113 | The text `to_base64` encodes is the decimal millisecond expiry, then one `;`, then the hash. |
| `ApiAuth.Base64RoundTrip` | control-plane/hub/src/api_auth.rs:91-114 | `try_from_base64` of `to_base64` gives back the hash and the millisecond expiry. This holds whenever base64 decoding undoes encoding and the hash has no `;`. |
| `ApiAuth.HashInputUnambiguous` | control-plane/hub/src/api_auth.rs:144-147 | The text `hash_secret` digests determines both the timestamp and the secret. |
| `ApiAuth.HashBindsExpiryAndSecret` | control-plane/hub/src/api_auth.rs:124-127 | With a collision-free digest, two tokens that share a hash and pass `check_secret` share the millisecond expiry and the secret. So editing a token's expiry invalidates it. |
| `ApiAuth.ExpiryIsPermanent` | control-plane/hub/src/api_auth.rs:118-120 | Once `is_expired` holds, it holds at every later time. |
| `ApiAuth.RoundTrip` | control-plane/hub/src/api_auth.rs:91-114 | For a hash without `;`, parsing the rendered text returns the hash and the millisecond expiry. |
| `ApiAuth.RoundTripKeepsSecretCheck` | control-plane/hub/src/api_auth.rs:124-127 | The round trip keeps the token's verdict under `check_secret`, for every secret. |
| `ApiAuth.MalformedRejected` | control-plane/hub/src/api_auth.rs:94-102 | Each of the three malformed shapes gives no token: text with no `;`, a first part that is not a `u64`, and three or more parts. |
| `ApiAuth.FromRequest` | control-plane/hub/src/api_auth.rs:159-191 | Checks run in order, and the first failure decides the answer. A missing configuration gives 500 "Server configuration error.". A missing header gives 401 "Missing `Authorization` header.". A malformed token gives 400 "Malformed token in `Authorization` header.", and 400 is returned exactly then. An expired token gives 401 "Provided token is expired.", returned exactly then. A wrong secret gives 401 "Provided token is invalid.". A request passes exactly when all checks hold, and then it yields the parsed token. |
| `ApiAuth.Login` | control-plane/hub/src/api_auth.rs:42-57 | Succeeds exactly for a password in `user_password`, with the encoding of a token for the server password that expires one month (30 days) from now, and that same expiry reported beside it. Otherwise it fails with "Invalid password.". |
| `ApiAuth.LoginTokenAccepted` | control-plane/hub/src/api_auth.rs:42-57 | A token issued by `login` passes the same hub's request guard until its millisecond expiry. This assumes base64 decoding undoes encoding. |
| `ApiAuth.LoginTokenExpires` | control-plane/hub/src/api_auth.rs:42-57 | A token issued by `login` is refused with 401 "Provided token is expired." at every time after its millisecond expiry, under the same base64 assumption. |
| `CredentialStore.IndexOfServer` | control-plane/control-panel/src/hub-api/credentials.ts:37-44 | Finds the first entry for a server, or reports that there is none. |
| `CredentialStore.Upsert` | control-plane/control-panel/src/hub-api/credentials.ts:37-47 | After `add_credentials` on a loaded list the new entry is present. The list grows by at most one entry, and holds nothing but old entries and the new one. |
| `CredentialStore.UpsertExisting` | control-plane/control-panel/src/hub-api/credentials.ts:37-44 | With an entry for the server present, the first one takes the new token and expiry. The length and every other entry are unchanged. |
| `CredentialStore.UpsertNew` | control-plane/control-panel/src/hub-api/credentials.ts:46-47 | With no entry for the server, the new entry is appended at the end. |
| `CredentialStore.UpsertKeepsUnique` | control-plane/control-panel/src/hub-api/credentials.ts:37-47 | A list with at most one entry per server keeps that property after an upsert. |
| `CredentialStore.WithoutServer` | control-plane/control-panel/src/hub-api/credentials.ts:55 | The result keeps only entries of the list, none of them for the server. |
| `CredentialStore.WithoutServerKeepsOthers` | control-plane/control-panel/src/hub-api/credentials.ts:55 | Every entry for another server survives. |
| `CredentialStore.WithoutServerAppend` | control-plane/control-panel/src/hub-api/credentials.ts:55 | Removal keeps the order: it distributes over concatenation. |
| `CredentialStore.WithoutAbsentServer` | control-plane/control-panel/src/hub-api/credentials.ts:55 | A list with no entry for the server is unchanged. |
| `CredentialStore.WithoutServerIdempotent` | control-plane/control-panel/src/hub-api/credentials.ts:50-56 | Removing twice equals removing once. |
| `CredentialStore.WithoutServerIgnoresUpdate` | control-plane/control-panel/src/hub-api/credentials.ts:37-44 | Updating an entry for a server in place does not change what removing that server leaves. |
| `CredentialStore.RemoveAfterAdd` | control-plane/control-panel/src/hub-api/credentials.ts:32-56 | Adding a server and then removing it gives the same list as removing it straight away. |
| `CredentialStore.Loaded` | control-plane/control-panel/src/hub-api/credentials.ts:59-75 | After `load_credentials` the list stays `null` exactly when storage fails or holds `null`. A missing entry gives `[]`, and a stored list is taken as it is. |
| `CredentialStore.GetSavedAsWritten` | control-plane/control-panel/src/hub-api/credentials.ts:19-30 | As written, the call fails exactly when the list is `null` and loading fails. Otherwise it returns the list, or `[]` while the list is `null`. |
| `CredentialStore.AsWrittenRejectsOnStorageError` | control-plane/control-panel/src/hub-api/credentials.ts:19-30 | As written, a failed load makes `get_saved_credentials` fail rather than return `[]`. |
| `CredentialStore.GetSaved` | control-plane/control-panel/src/hub-api/credentials.ts:19-30 | A loaded list is returned as it is. A list still `null` after loading reads as `[]`, including when storage is unavailable. |
| `CredentialStore.GetSavedAgreesElsewhere` | control-plane/control-panel/src/hub-api/credentials.ts:19-30 | Away from a failed load, the corrected and the as-written readings agree. |
| `CredentialStore.CredentialsStore.constructor` | control-plane/control-panel/src/hub-api/credentials.ts:17 | The list starts `null`. |
| `CredentialStore.CredentialsStore.GetSavedCredentials` | control-plane/control-panel/src/hub-api/credentials.ts:19-30 | The returned list and the new field are those of the corrected `GetSaved`, not of the code as written: when loading fails, the method returns `[]` where the code rejects (see Findings). |
| `CredentialStore.CredentialsStore.AddCredentials` | control-plane/control-panel/src/hub-api/credentials.ts:32-48 | Does nothing while the list is `null`. Otherwise the list becomes its upsert with the entry. |
| `CredentialStore.CredentialsStore.RemoveCredentials` | control-plane/control-panel/src/hub-api/credentials.ts:50-57 | Does nothing while the list is `null`. Otherwise it drops every entry for the server. |
| `ActiveHub.ActiveHub.constructor` | control-plane/control-panel/src/active_hub.ts:5 | Starts logged out. |
| `ActiveHub.ActiveHub.LogInWith` | control-plane/control-panel/src/active_hub.ts:11-18 | While logged out it stores the credentials and succeeds. While logged in it fails with the fixed message and keeps the current credentials. Either way the hub ends up logged in. |
| `ActiveHub.ActiveHub.LogOut` | control-plane/control-panel/src/active_hub.ts:20-22 | Always ends logged out (so it is idempotent). |
| `Htu21d.Status` | component-library/htu21d-i2c-sensor/example_hifive/src/main.rs:92 | The status bits are the second byte modulo 4. |
| `Htu21d.Assemble` | component-library/htu21d-i2c-sensor/example_hifive/src/main.rs:98 | Two bytes assemble to msb*256 + lsb with its two low bits cleared, at most 0xFFFC, so there is no `u16` overflow. The low two bits are zero, the high byte is msb and the low byte is lsb & 0xFC. |
| `Htu21d.Measurement` | component-library/htu21d-i2c-sensor/example_hifive/src/main.rs:98 | The same facts for the first two bytes of a 3-byte reading. |
| `Htu21d.DecodeTemperature` | component-library/htu21d-i2c-sensor/example_hifive/src/main.rs:92-98 | A reading is accepted exactly when its status bits are 0b00 (temperature), and then yields the measurement. |

## Left out

- Locks, atomics and threads: the depot's `RwLock`s, `DeviceInfo`'s `Mutex`es, the `AtomicBool` and its
  memory ordering, `thread::spawn`. State is plain fields. The listener is a sequence of steps that
  interleave with request calls one at a time. The deadlock warning on holding two guards is not
  modelled.
- `NetworkBioreactor.NetworkReactor.Abort`: does not model the `join` that waits for the listener thread.
  The wait may never end, because the thread returns only from the connected loop.
  `AbortTakesEffectOnceConnected` and `StopsOnlyAfterAbort` state when the thread stops instead.
- Sleeping (the one-second backoff and poll interval): a step is one wake-up, and time is not modelled.
- `TcpListener::bind` and `accept`: their outcomes are inputs (`BindOutcome`, `AcceptOutcome`), with the
  I/O error's debug text as a string. The TCP client in `bin/network_test_device.rs` is not part of this
  model.
- Rocket routing, JSON bodies, `login_cors`, `register`, the `renew` endpoint and hub `main.rs`. `renew`
  mints a token the way `login` does. `SetTargetStatusOf` models the one depot write path that
  `api_device.rs` uses.
- `HubConfig::read_from_args` and `from_json`: argument, file and JSON I/O.
- Base64, SHA3-256 and the clock are parameters: `encode`, `decode` (decoding plus the UTF-8 check),
  `digest`, and `now`.
- `SystemTime` is a count of nanoseconds from the Unix epoch. Times before the epoch are not represented,
  and neither is a millisecond count at or above 2^64. On both, `timestamp` panics; `Timestamp` requires
  a representable time.
- `CredentialStore.CredentialsStore.GetSavedCredentials`: follows the corrected reading of
  `get_saved_credentials`. When loading fails, it returns `[]` where the code as written rejects. The
  as-written behaviour is `GetSavedAsWritten` (see Findings).
- `localStorage`: writing the list back is not modelled, and its failure is not modelled either. What
  loading returns is an input (`LoadOutcome`).
- Object identity in `credentials.ts`. `add_credentials` pushes the caller's own object and later updates
  it in place, and `get_saved_credentials` returns the stored array itself. Entries are values here, so
  this aliasing is not captured.
- `console.log` in `log_in_with`.
- The firmware's I2C, UART and delay calls, the unused CRC import, and the floating-point temperature
  formula on line 102.
- The Raspberry Pi Python scripts: hardware demos with no logic of their own.
- Plain accessors (`get_id`, `get_name`, `get_description`, `get_current_status`, `is_aborted` and the
  like) are functions that read one field. They have no contract of their own, and the contracts above
  are stated through them.

## Findings

| source | as written | input that shows it | evidently intended | confidence | as-written member | corrected member |
|---|---|---|---|---|---|---|
| control-plane/control-panel/src/hub-api/credentials.ts:19-30 | When local storage cannot be read, `load_credentials` rejects (line 72). The `await` on line 21 then rethrows, so `get_saved_credentials` fails. | Local storage access throws (storage disabled), or the stored text is not valid JSON, while the list is still `null`. | The comment on line 25 says the list stays `null` when local storage is not available and `[]` is returned. | medium, not executed | `CredentialStore.AsWrittenRejectsOnStorageError` | `CredentialStore.GetSaved` |

=== FILE: active_hub.dfy ===
/**
 * The hub the control panel is logged in to (`active_hub.ts`): logged out while the
 * stored credentials are `null`, logged in otherwise.
 */
module ActiveHub {
  import opened Wrappers
  import opened CredentialStore

  const ALREADY_LOGGED_IN: string := "Already logged in. Please Logout first."

  class ActiveHub {
    var credentials: Option<Credentials>

    constructor ()
      ensures !IsLoggedIn()
    {
      credentials := None;
    }

    /** `is_logged_in`: credentials are present. */
    function IsLoggedIn(): bool
      reads this
    {
      credentials.Some?
    }

    /**
     * `log_in_with`: logs in when logged out; when already logged in it throws and
     * keeps the session it has.
     */
    method LogInWith(c: Credentials) returns (r: Result<(), string>)
      modifies this
      ensures old(IsLoggedIn()) ==> r == Failure(ALREADY_LOGGED_IN) && credentials == old(credentials)
      ensures !old(IsLoggedIn()) ==> r.Success? && credentials == Some(c)
      ensures IsLoggedIn()
    {
      if credentials.None? {
        credentials := Some(c);
        r := Success(());
      } else {
        r := Failure(ALREADY_LOGGED_IN);
      }
    }

    /** `log_out`: always ends logged out. */
    method LogOut()
      modifies this
      ensures !IsLoggedIn()
    {
      credentials := None;
    }
  }

  /** Log in, fail to log in again, log out twice, log in with other credentials. */
  method Session(first: Credentials, second: Credentials) {
    var hub := new ActiveHub();
    var r := hub.LogInWith(first);
    assert r.Success? && hub.credentials == Some(first);
    r := hub.LogInWith(second);
    assert r.Failure? && hub.credentials == Some(first);
    hub.LogOut();
    hub.LogOut();
    assert !hub.IsLoggedIn();
    r := hub.LogInWith(second);
    assert r.Success? && hub.credentials == Some(second);
  }
}

=== FILE: api_auth.dfy ===
/**
 * Authentication of API requests (`api_auth.rs`).
 *
 * A token is the text `"<expiry in ms since the epoch>;<hash>"`, base64-encoded, where
 * the hash is base64(SHA3-256("<expiry in ms>;<server password>")). Base64 and SHA3 are
 * library code and the clock is the operating system's, so they enter as parameters:
 * `encode` (base64 encoding), `decode` (base64 decoding followed by the UTF-8 check,
 * `None` when either fails), `digest` (SHA3-256 then base64) and `now`.
 */
module ApiAuth {
  import opened Wrappers
  import opened Strings
  import opened Config

  /** `SystemTime`, as nanoseconds after the Unix epoch. */
  type Time = nat

  const NANOS_PER_MILLI: nat := 1_000_000
  /** `DURATION_MONTH`: thirty days. */
  const DURATION_MONTH: nat := 30 * 24 * 60 * 60 * 1_000_000_000

  datatype ApiToken = ApiToken(hash: string, expires: Time)

  /** A time whose millisecond count fits in a `u64`; `timestamp` panics on any other. */
  predicate Representable(t: Time) {
    t / NANOS_PER_MILLI < U64_LIMIT
  }

  /** `ApiToken::timestamp`: whole milliseconds since the epoch, rounded down. */
  function Timestamp(t: Time): (ms: nat)
    requires Representable(t)
    ensures ms < U64_LIMIT
    ensures ms * NANOS_PER_MILLI <= t < (ms + 1) * NANOS_PER_MILLI
  {
    t / NANOS_PER_MILLI
  }

  /** `ApiToken::time`: the instant `ms` milliseconds after the epoch. */
  function TimeOf(ms: nat): (t: Time)
    requires ms < U64_LIMIT
    ensures Representable(t) && Timestamp(t) == ms
  {
    ms * NANOS_PER_MILLI
  }

  /** `ApiToken::hash_secret`. */
  function HashSecret(timestamp: nat, secret: string, digest: string -> string): string {
    digest(NatToString(timestamp) + ";" + secret)
  }

  /** `ApiToken::check_secret`: the hash is the one `secret` gives for this expiry. */
  predicate CheckSecret(t: ApiToken, secret: string, digest: string -> string)
    requires Representable(t.expires)
  {
    t.hash == HashSecret(Timestamp(t.expires), secret, digest)
  }

  /** `ApiToken::is_expired`: the expiry lies strictly before `now`. */
  predicate IsExpired(t: ApiToken, now: Time) {
    t.expires < now
  }

  /** `ApiToken::new`: a token for `secret`, valid for `duration` from `now`. */
  function NewToken(secret: string, now: Time, duration: nat, digest: string -> string): (t: ApiToken)
    requires Representable(now + duration)
    ensures t.expires == now + duration
    ensures CheckSecret(t, secret, digest)
  {
    var expires := now + duration;
    ApiToken(HashSecret(Timestamp(expires), secret, digest), expires)
  }

  /** The text `to_base64` encodes. */
  function Render(t: ApiToken): (r: string)
    requires Representable(t.expires)
    ensures |r| == |NatToString(Timestamp(t.expires))| + 1 + |t.hash|
    ensures AllDigits(r[..|r| - |t.hash| - 1])
    ensures DigitsValue(r[..|r| - |t.hash| - 1]) == Timestamp(t.expires)
    ensures r[|r| - |t.hash| - 1] == ';'
    ensures r[|r| - |t.hash|..] == t.hash
  {
    var digits := NatToString(Timestamp(t.expires));
    var r := digits + ";" + t.hash;
    assert r[..|digits|] == digits;
    r
  }

  /** `ApiToken::to_base64`. */
  function ToBase64(t: ApiToken, encode: string -> string): string
    requires Representable(t.expires)
  {
    encode(Render(t))
  }

  /**
   * The text layer of `try_from_base64`: the first `;`-separated part must be a `u64`,
   * there must be a second part and there must not be a third.
   */
  function ParsePlaintext(raw: string): (r: Option<ApiToken>)
    ensures r.Some? <==> |Split(raw, ';')| == 2 && ParseU64(Split(raw, ';')[0]).Some?
    ensures r.Some? ==> r.value.hash == Split(raw, ';')[1]
    ensures r.Some? ==> Representable(r.value.expires)
    ensures r.Some? ==> r.value.expires == TimeOf(ParseU64(Split(raw, ';')[0]).value)
    ensures r.Some? ==> Timestamp(r.value.expires) == ParseU64(Split(raw, ';')[0]).value
  {
    var parts := Split(raw, ';');
    match ParseU64(parts[0])
    case None => None
    case Some(ms) =>
      if |parts| < 2 then None
      else if |parts| > 2 then None
      else Some(ApiToken(parts[1], TimeOf(ms)))
  }

  /** `ApiToken::try_from_base64`. */
  function TryFromBase64(token: string, decode: string -> Option<string>): (r: Option<ApiToken>)
    ensures decode(token).None? ==> r.None?
    ensures decode(token).Some? ==> r == ParsePlaintext(decode(token).value)
  {
    match decode(token)
    case None => None
    case Some(raw) => ParsePlaintext(raw)
  }

  /**
   * Rendering then parsing gives back the hash and the expiry rounded down to the
   * millisecond, provided the hash has no `;` (a base64 digest never has one).
   */
  lemma RoundTrip(t: ApiToken)
    requires Representable(t.expires)
    requires ';' !in t.hash
    ensures ParsePlaintext(Render(t)) == Some(ApiToken(t.hash, TimeOf(Timestamp(t.expires))))
  {
    var ms := Timestamp(t.expires);
    var digits := NatToString(ms);
    assert ';' !in digits by {
      assert AllDigits(digits);
    }
    SplitJoined(digits, ';', t.hash);
    assert Render(t) == digits + [';'] + t.hash;
    ParseRendered(ms);
  }

  /**
   * `try_from_base64` undoes `to_base64`, up to the millisecond, whenever base64
   * decoding undoes encoding and the hash has no `;`.
   */
  lemma Base64RoundTrip(t: ApiToken, encode: string -> string, decode: string -> Option<string>)
    requires Representable(t.expires)
    requires ';' !in t.hash
    requires decode(encode(Render(t))) == Some(Render(t))
    ensures TryFromBase64(ToBase64(t, encode), decode) == Some(ApiToken(t.hash, TimeOf(Timestamp(t.expires))))
  {
    RoundTrip(t);
  }

  /**
   * The text `hash_secret` digests determines the timestamp and the secret: a decimal
   * rendering has no `;`, so the first `;` always ends the timestamp.
   */
  lemma HashInputUnambiguous(ts1: nat, secret1: string, ts2: nat, secret2: string)
    requires NatToString(ts1) + ";" + secret1 == NatToString(ts2) + ";" + secret2
    ensures ts1 == ts2 && secret1 == secret2
  {
    var d1, d2 := NatToString(ts1), NatToString(ts2);
    assert ';' !in d1 by { assert AllDigits(d1); }
    assert ';' !in d2 by { assert AllDigits(d2); }
    var x := d1 + [';'] + secret1;
    assert x == d1 + ";" + secret1 == d2 + [';'] + secret2;
    SplitAtFirst(d1, ';', secret1);
    SplitAtFirst(d2, ';', secret2);
    assert d1 == Split(x, ';')[0] == d2;
    assert secret1 == x[|d1| + 1..] == secret2;
  }

  /**
   * With a collision-free digest, a hash vouches for one millisecond expiry and one
   * secret: editing a token's expiry, or checking it against another secret, fails.
   */
  lemma HashBindsExpiryAndSecret(t: ApiToken, u: ApiToken, secret1: string, secret2: string,
                                 digest: string -> string)
    requires Representable(t.expires) && Representable(u.expires)
    requires forall x, y :: digest(x) == digest(y) ==> x == y
    requires t.hash == u.hash
    requires CheckSecret(t, secret1, digest) && CheckSecret(u, secret2, digest)
    ensures Timestamp(t.expires) == Timestamp(u.expires) && secret1 == secret2
  {
    HashInputUnambiguous(Timestamp(t.expires), secret1, Timestamp(u.expires), secret2);
  }

  /** Once expired, a token stays expired. */
  lemma ExpiryIsPermanent(t: ApiToken, now: Time, later: Time)
    requires IsExpired(t, now) && now <= later
    ensures IsExpired(t, later)
  {
  }

  /** The round trip keeps the token's verdict under `check_secret` for every secret. */
  lemma RoundTripKeepsSecretCheck(t: ApiToken, secret: string, digest: string -> string)
    requires Representable(t.expires)
    requires ';' !in t.hash
    ensures ParsePlaintext(Render(t)).Some?
    ensures CheckSecret(ParsePlaintext(Render(t)).value, secret, digest) == CheckSecret(t, secret, digest)
  {
    RoundTrip(t);
  }

  /**
   * The three ways a plaintext is malformed, for `;`-free pieces `a`, `b` and `c`: no
   * separator at all, a first part that is not a `u64`, or a third part.
   */
  lemma MalformedRejected(a: string, b: string, c: string)
    requires ';' !in a && ';' !in b
    ensures ParsePlaintext(a).None?
    ensures ParseU64(a).None? ==> ParsePlaintext(a + [';'] + b).None?
    ensures ParsePlaintext(a + [';'] + b + [';'] + c).None?
  {
    SplitNoSep(a, ';');
    SplitJoined(a, ';', b);
    SplitAtFirst(b, ';', c);
    SplitAtFirst(a, ';', b + [';'] + c);
    assert a + [';'] + b + [';'] + c == a + [';'] + (b + [';'] + c);
  }

  /** The three failure statuses the guard uses: 400, 401 and 500. */
  datatype HttpStatus = BadRequest | Unauthorized | InternalServerError

  /** The request guard's verdict: the token, or a failure status with its message. */
  datatype Outcome = Accept(token: ApiToken) | Reject(status: HttpStatus, message: string)

  const CONFIG_ERROR: string := "Server configuration error."
  const MISSING_HEADER: string := "Missing `Authorization` header."
  const MALFORMED_TOKEN: string := "Malformed token in `Authorization` header."
  const EXPIRED_TOKEN: string := "Provided token is expired."
  const INVALID_TOKEN: string := "Provided token is invalid."

  /**
   * `ApiToken::from_request`: the checks run in a fixed order (configuration, header
   * present, token well formed, not expired, secret matches), the first one that
   * fails decides the answer, and a request passes only when all of them hold.
   */
  function FromRequest(config: Option<HubConfig>, header: Option<string>, now: Time,
                       decode: string -> Option<string>, digest: string -> string): (o: Outcome)
    ensures config.None? ==> o == Reject(InternalServerError, CONFIG_ERROR)
    ensures config.Some? && header.None? ==> o == Reject(Unauthorized, MISSING_HEADER)
    ensures o.Reject? && o.status == BadRequest <==>
      config.Some? && header.Some? && TryFromBase64(header.value, decode).None?
    ensures config.Some? && header.Some? && TryFromBase64(header.value, decode).None? ==>
      o == Reject(BadRequest, MALFORMED_TOKEN)
    ensures o.Reject? && o.message == EXPIRED_TOKEN <==>
      config.Some? && header.Some? && TryFromBase64(header.value, decode).Some?
      && IsExpired(TryFromBase64(header.value, decode).value, now)
    ensures o.Reject? && o.message == EXPIRED_TOKEN ==> o.status == Unauthorized
    ensures (config.Some? && header.Some? && TryFromBase64(header.value, decode).Some?
             && !IsExpired(TryFromBase64(header.value, decode).value, now)
             && !CheckSecret(TryFromBase64(header.value, decode).value, config.value.serverPassword, digest))
      ==> o == Reject(Unauthorized, INVALID_TOKEN)
    ensures o.Accept? <==>
      config.Some? && header.Some? && TryFromBase64(header.value, decode).Some?
      && !IsExpired(TryFromBase64(header.value, decode).value, now)
      && CheckSecret(TryFromBase64(header.value, decode).value, config.value.serverPassword, digest)
    ensures o.Accept? ==> Some(o.token) == TryFromBase64(header.value, decode)
  {
    if config.None? then Reject(InternalServerError, CONFIG_ERROR)
    else if header.None? then Reject(Unauthorized, MISSING_HEADER)
    else
      match TryFromBase64(header.value, decode)
      case None => Reject(BadRequest, MALFORMED_TOKEN)
      case Some(token) =>
        if IsExpired(token, now) then Reject(Unauthorized, EXPIRED_TOKEN)
        else if !CheckSecret(token, config.value.serverPassword, digest) then Reject(Unauthorized, INVALID_TOKEN)
        else Accept(token)
  }

  /** What `/login` answers with: the encoded token and its expiry. */
  datatype FreshToken = FreshToken(token: string, expires: Time)

  const INVALID_PASSWORD: string := "Invalid password."

  /** `login`: a password from the configuration's `user_password` list earns a month-long token. */
  function Login(config: HubConfig, password: string, now: Time,
                 encode: string -> string, digest: string -> string): (r: Result<FreshToken, string>)
    requires Representable(now + DURATION_MONTH)
    ensures r.Success? <==> password in config.userPassword
    ensures r.Failure? ==> r.error == INVALID_PASSWORD
    ensures r.Success? ==> r.value.expires == now + DURATION_MONTH
    ensures r.Success? ==>
      r.value.token == ToBase64(NewToken(config.serverPassword, now, DURATION_MONTH, digest), encode)
  {
    if password in config.userPassword then
      var token := NewToken(config.serverPassword, now, DURATION_MONTH, digest);
      Success(FreshToken(ToBase64(token, encode), token.expires))
    else Failure(INVALID_PASSWORD)
  }

  /**
   * End to end: a token handed out by `login` passes the request guard of the same
   * hub until its expiry (rounded down to the millisecond), provided base64 decoding
   * undoes encoding and the digest contains no `;`.
   */
  lemma LoginTokenAccepted(config: HubConfig, password: string, now: Time, later: Time,
                           encode: string -> string, decode: string -> Option<string>,
                           digest: string -> string)
    requires Representable(now + DURATION_MONTH)
    requires password in config.userPassword
    requires forall s :: decode(encode(s)) == Some(s)
    requires forall s :: ';' !in digest(s)
    requires later <= TimeOf(Timestamp(now + DURATION_MONTH))
    ensures FromRequest(Some(config), Some(Login(config, password, now, encode, digest).value.token), later, decode, digest).Accept?
  {
    var token := NewToken(config.serverPassword, now, DURATION_MONTH, digest);
    var header := ToBase64(token, encode);
    assert decode(header) == Some(Render(token));
    assert ';' !in token.hash;
    RoundTrip(token);
    var parsed := ApiToken(token.hash, TimeOf(Timestamp(token.expires)));
    assert TryFromBase64(header, decode) == Some(parsed);
    assert !IsExpired(parsed, later);
    assert CheckSecret(parsed, config.serverPassword, digest);
    assert Login(config, password, now, encode, digest).value.token == header;
  }

  /**
   * The other half: once its expiry (rounded down to the millisecond) has passed, a
   * token handed out by `login` is refused as expired.
   */
  lemma LoginTokenExpires(config: HubConfig, password: string, now: Time, later: Time,
                          encode: string -> string, decode: string -> Option<string>,
                          digest: string -> string)
    requires Representable(now + DURATION_MONTH)
    requires password in config.userPassword
    requires forall s :: decode(encode(s)) == Some(s)
    requires forall s :: ';' !in digest(s)
    requires later > TimeOf(Timestamp(now + DURATION_MONTH))
    ensures FromRequest(Some(config), Some(Login(config, password, now, encode, digest).value.token), later, decode, digest)
      == Reject(Unauthorized, EXPIRED_TOKEN)
  {
    var token := NewToken(config.serverPassword, now, DURATION_MONTH, digest);
    var header := ToBase64(token, encode);
    assert decode(header) == Some(Render(token));
    assert ';' !in token.hash;
    RoundTrip(token);
    assert Login(config, password, now, encode, digest).value.token == header;
  }
}

=== FILE: config.dfy ===
/**
 * Hub configuration (`config.rs`): device descriptors tagged by kind, the
 * projections that turn a descriptor into the configuration of one device
 * kind, and the sanity check run on the whole hub configuration.
 */
module Config {
  import opened Wrappers

  newtype u8 = x: int | 0 <= x < 0x100
  newtype u16 = x: int | 0 <= x < 0x1_0000

  /** `std::net::Ipv4Addr`, as its four octets. */
  datatype Ipv4Addr = Ipv4Addr(a: u8, b: u8, c: u8, d: u8)

  /** `Ipv4Addr::LOCALHOST`. */
  const LOCALHOST: Ipv4Addr := Ipv4Addr(127, 0, 0, 1)

  /** Metadata shared by every kind of device; the `id` is the device's key in the hub. */
  datatype DeviceMetadata = DeviceMetadata(id: string, name: string, description: Option<string>)

  /** One entry of the configuration's device list, tagged `test_device` or `network_device`. */
  datatype DeviceConfig =
    | TestDevice(meta: DeviceMetadata)
    | NetworkDevice(meta: DeviceMetadata, address: Option<Ipv4Addr>, port: u16)

  /** What a `TestReactor` is built from (`test_bioreactor.rs`). */
  datatype TestReactorConfig = TestReactorConfig(meta: DeviceMetadata)

  /** What a `NetworkReactor` is built from (`network_bioreactor.rs`); the address is resolved. */
  datatype NetworkReactorConfig = NetworkReactorConfig(meta: DeviceMetadata, address: Ipv4Addr, port: u16)

  datatype HubConfig = HubConfig(
    name: string,
    description: Option<string>,
    serverPassword: string,
    userPassword: seq<string>,
    deviceConfig: seq<DeviceConfig>)

  const MIN_SERVER_PASSWORD_BYTES: nat := 16
  const SHORT_PASSWORD: string := "Server password must be at least 16 characters long."

  /** Number of bytes the UTF-8 encoding of one scalar value takes. */
  function Utf8Width(c: char): (w: nat)
    ensures 1 <= w <= 4
  {
    if (c as int) < 0x80 then 1
    else if (c as int) < 0x800 then 2
    else if (c as int) < 0x1_0000 then 3
    else 4
  }

  /** `String::len()`: the length of the UTF-8 encoding, in bytes. */
  function Utf8Len(s: string): (n: nat)
    ensures |s| <= n <= 4 * |s|
  {
    if |s| == 0 then 0 else Utf8Width(s[0]) + Utf8Len(s[1..])
  }

  /** `HubConfig::validate`: rejects a server password shorter than 16 bytes, and nothing else. */
  function Validate(config: HubConfig): (r: Result<(), string>)
    ensures r.Failure? <==> Utf8Len(config.serverPassword) < MIN_SERVER_PASSWORD_BYTES
    ensures r.Failure? ==> r.error == SHORT_PASSWORD
  {
    if Utf8Len(config.serverPassword) < MIN_SERVER_PASSWORD_BYTES then Failure(SHORT_PASSWORD)
    else Success(())
  }

  /** The verdict depends on the server password alone. */
  lemma ValidateOnlyReadsPassword(c1: HubConfig, c2: HubConfig)
    requires c1.serverPassword == c2.serverPassword
    ensures Validate(c1) == Validate(c2)
  {
  }

  /** A password of 16 or more characters always passes; one of 3 or fewer characters never does. */
  lemma ValidateByCharCount(config: HubConfig)
    ensures |config.serverPassword| >= 16 ==> Validate(config).Success?
    ensures |config.serverPassword| <= 3 ==> Validate(config).Failure?
  {
  }

  /** `DeviceConfig::to_test_device`. */
  function ToTestDevice(d: DeviceConfig): (r: Option<TestReactorConfig>)
    ensures r.Some? <==> d.TestDevice?
    ensures r.Some? ==> r.value.meta == d.meta
  {
    match d
    case TestDevice(meta) => Some(TestReactorConfig(meta))
    case _ => None
  }

  /** `DeviceConfig::to_network_device`: a missing address becomes 127.0.0.1. */
  function ToNetworkDevice(d: DeviceConfig): (r: Option<NetworkReactorConfig>)
    ensures r.Some? <==> d.NetworkDevice?
    ensures r.Some? ==> r.value.meta == d.meta && r.value.port == d.port
    ensures r.Some? && d.address.None? ==> r.value.address == LOCALHOST
    ensures r.Some? && d.address.Some? ==> r.value.address == d.address.value
  {
    match d
    case NetworkDevice(meta, address, port) =>
      Some(NetworkReactorConfig(meta, if address.Some? then address.value else LOCALHOST, port))
    case _ => None
  }

  /** Every descriptor yields exactly one device configuration, of its own kind, with its own metadata. */
  lemma ExactlyOneProjection(d: DeviceConfig)
    ensures ToTestDevice(d).Some? != ToNetworkDevice(d).Some?
    ensures ToTestDevice(d).Some? ==> ToTestDevice(d).value.meta == d.meta
    ensures ToNetworkDevice(d).Some? ==> ToNetworkDevice(d).value.meta == d.meta
  {
  }
}

=== FILE: credentials.dfy ===
/**
 * The control panel's store of hub access tokens (`credentials.ts`): a list that is
 * `null` until loaded from the browser's local storage, with at most one entry per
 * hub server kept up to date by upsert and remove.
 *
 * Writing the list back to local storage is not part of this model; loading it is an
 * input (`LoadOutcome`).
 */
module CredentialStore {
  import opened Wrappers

  /** `Credentials`; `expires` is the `Date`'s milliseconds since the epoch. */
  datatype Credentials = Credentials(server: string, token: string, expires: int)

  /** No two entries are for the same server. */
  ghost predicate UniqueServers(list: seq<Credentials>) {
    forall i, j :: 0 <= i < j < |list| ==> list[i].server != list[j].server
  }

  /** The position of the first entry for `server`, if any. */
  function IndexOfServer(list: seq<Credentials>, server: string): (r: Option<nat>)
    ensures r.Some? ==> r.value < |list| && list[r.value].server == server
    ensures r.Some? ==> forall j :: 0 <= j < r.value ==> list[j].server != server
    ensures r.None? ==> forall j :: 0 <= j < |list| ==> list[j].server != server
  {
    if |list| == 0 then None
    else if list[0].server == server then Some(0)
    else
      match IndexOfServer(list[1..], server)
      case None => None
      case Some(i) => Some(i + 1)
  }

  /**
   * What `add_credentials` makes of a loaded list: the first entry for the same server
   * takes the new token and expiry in place, or else the entry is appended.
   */
  function Upsert(list: seq<Credentials>, c: Credentials): (r: seq<Credentials>)
    ensures c in r
    ensures |list| <= |r| <= |list| + 1
    ensures forall e :: e in r ==> e in list || e == c
  {
    match IndexOfServer(list, c.server)
    case Some(i) =>
      var r := list[i := list[i].(token := c.token, expires := c.expires)];
      assert r[i] == c;
      r
    case None => list + [c]
  }

  /**
   * With an entry for the server already present, the first such entry becomes `c`
   * and nothing else changes, the length included.
   */
  lemma UpsertExisting(list: seq<Credentials>, c: Credentials, i: nat)
    requires i < |list| && list[i].server == c.server
    requires forall j :: 0 <= j < i ==> list[j].server != c.server
    ensures |Upsert(list, c)| == |list|
    ensures Upsert(list, c)[i] == c
    ensures forall j :: 0 <= j < |list| && j != i ==> Upsert(list, c)[j] == list[j]
  {
    assert IndexOfServer(list, c.server) == Some(i);
  }

  /** Without an entry for the server, the new entry is appended at the end. */
  lemma UpsertNew(list: seq<Credentials>, c: Credentials)
    requires forall j :: 0 <= j < |list| ==> list[j].server != c.server
    ensures Upsert(list, c) == list + [c]
  {
  }

  /** An upsert keeps the list at most one entry per server. */
  lemma UpsertKeepsUnique(list: seq<Credentials>, c: Credentials)
    requires UniqueServers(list)
    ensures UniqueServers(Upsert(list, c))
  {
    match IndexOfServer(list, c.server)
    case Some(i) =>
      UpsertExisting(list, c, i);
    case None =>
      UpsertNew(list, c);
  }

  /** `remove_credentials` on a loaded list: `filter(it => it.server != server)`. */
  function WithoutServer(list: seq<Credentials>, server: string): (r: seq<Credentials>)
    ensures |r| <= |list|
    ensures forall e :: e in r ==> e in list && e.server != server
  {
    if |list| == 0 then []
    else if list[0].server != server then [list[0]] + WithoutServer(list[1..], server)
    else WithoutServer(list[1..], server)
  }

  /** Every entry for another server survives the removal. */
  lemma {:induction false} WithoutServerKeepsOthers(list: seq<Credentials>, server: string)
    ensures forall e :: e in list && e.server != server ==> e in WithoutServer(list, server)
  {
    if |list| > 0 {
      WithoutServerKeepsOthers(list[1..], server);
      forall e | e in list && e.server != server
        ensures e in WithoutServer(list, server)
      {
        if e != list[0] {
          assert e in list[1..];
        }
      }
    }
  }

  /** Removal keeps the order of what it keeps: it distributes over concatenation. */
  lemma {:induction false} WithoutServerAppend(a: seq<Credentials>, b: seq<Credentials>, server: string)
    ensures WithoutServer(a + b, server) == WithoutServer(a, server) + WithoutServer(b, server)
    decreases |a|
  {
    if |a| > 0 {
      assert (a + b)[1..] == a[1..] + b;
      WithoutServerAppend(a[1..], b, server);
    } else {
      assert a + b == b;
    }
  }

  /** A list with no entry for the server is left exactly as it was. */
  lemma {:induction false} WithoutAbsentServer(list: seq<Credentials>, server: string)
    requires forall j :: 0 <= j < |list| ==> list[j].server != server
    ensures WithoutServer(list, server) == list
  {
    if |list| > 0 {
      WithoutAbsentServer(list[1..], server);
      assert [list[0]] + list[1..] == list;
    }
  }

  /** Removing twice is removing once. */
  lemma WithoutServerIdempotent(list: seq<Credentials>, server: string)
    ensures WithoutServer(WithoutServer(list, server), server) == WithoutServer(list, server)
  {
    var once := WithoutServer(list, server);
    forall j | 0 <= j < |once| ensures once[j].server != server {
      assert once[j] in once;
    }
    WithoutAbsentServer(once, server);
  }

  /** Replacing an entry for the removed server by another one for it does not change the removal. */
  lemma WithoutServerIgnoresUpdate(list: seq<Credentials>, i: nat, e: Credentials)
    requires i < |list| && list[i].server == e.server
    ensures WithoutServer(list[i := e], e.server) == WithoutServer(list, e.server)
  {
    var server := e.server;
    var before, after := list[..i], list[i + 1..];
    assert list == before + [list[i]] + after;
    assert list[i := e] == before + [e] + after;
    WithoutServerAppend(before + [list[i]], after, server);
    WithoutServerAppend(before, [list[i]], server);
    WithoutServerAppend(before + [e], after, server);
    WithoutServerAppend(before, [e], server);
  }

  /**
   * Adding a server and then removing it is the same as removing it straight away:
   * `remove_credentials` undoes `add_credentials` on the entries for other servers.
   */
  lemma RemoveAfterAdd(list: seq<Credentials>, c: Credentials)
    ensures WithoutServer(Upsert(list, c), c.server) == WithoutServer(list, c.server)
  {
    match IndexOfServer(list, c.server)
    case Some(i) =>
      WithoutServerIgnoresUpdate(list, i, c);
      UpsertExisting(list, c, i);
      assert Upsert(list, c) == list[i := c];
    case None =>
      WithoutServerAppend(list, [c], c.server);
  }

  /** What reading local storage gives: an error, no stored value, or the parsed JSON (`null` or a list). */
  datatype LoadOutcome = StorageError | NoEntry | Parsed(value: Option<seq<Credentials>>)

  /** `get_saved_credentials` as written: a failed load rejects the whole call. */
  function GetSavedAsWritten(credentials: Option<seq<Credentials>>, load: LoadOutcome)
    : (out: (Result<seq<Credentials>, ()>, Option<seq<Credentials>>))
    ensures out.0.Failure? <==> credentials.None? && load == StorageError
    ensures credentials.Some? ==> out.1 == credentials
    ensures out.0.Success? && out.1.Some? ==> out.0.value == out.1.value
    ensures out.0.Success? && out.1.None? ==> out.0.value == []
  {
    if credentials.Some? then (Success(credentials.value), credentials)
    else
      match load
      case StorageError => (Failure(()), None)
      case NoEntry => (Success([]), Some([]))
      case Parsed(v) => (Success(if v.None? then [] else v.value), v)
  }

  /**
   * As written, unavailable local storage makes the call fail, although the code's
   * own comment says the list then stays `null` and `[]` is returned.
   */
  lemma AsWrittenRejectsOnStorageError()
    ensures GetSavedAsWritten(None, StorageError).0.Failure?
  {
  }

  /** The list after loading, where a failed load leaves it `null`. */
  function Loaded(load: LoadOutcome): (r: Option<seq<Credentials>>)
    ensures r.None? <==> load == StorageError || load == Parsed(None)
    ensures load == NoEntry ==> r == Some([])
    ensures load.Parsed? && load.value.Some? ==> r == load.value
  {
    match load
    case StorageError => None
    case NoEntry => Some([])
    case Parsed(v) => v
  }

  /**
   * `get_saved_credentials` as intended: a list that is still `null` after loading,
   * whether storage failed or held `null`, reads as empty.
   */
  function GetSaved(credentials: Option<seq<Credentials>>, load: LoadOutcome)
    : (out: (seq<Credentials>, Option<seq<Credentials>>))
    ensures credentials.Some? ==> out == (credentials.value, credentials)
    ensures credentials.None? && load == StorageError ==> out == ([], None)
    ensures out.1.None? ==> out.0 == []
    ensures out.1.Some? ==> out.0 == out.1.value
  {
    var list := if credentials.Some? then credentials else Loaded(load);
    (if list.None? then [] else list.value, list)
  }

  /** The two agree on every input except a failed load of a list that is still `null`. */
  lemma GetSavedAgreesElsewhere(credentials: Option<seq<Credentials>>, load: LoadOutcome)
    requires credentials.Some? || load != StorageError
    ensures GetSavedAsWritten(credentials, load).0 == Success(GetSaved(credentials, load).0)
    ensures GetSavedAsWritten(credentials, load).1 == GetSaved(credentials, load).1
  {
  }

  class CredentialsStore {
    var credentials: Option<seq<Credentials>>

    constructor ()
      ensures credentials.None?
    {
      credentials := None;
    }

    /** `get_saved_credentials`, loading first if the list is still `null`. */
    method GetSavedCredentials(load: LoadOutcome) returns (list: seq<Credentials>)
      modifies this
      ensures (list, credentials) == GetSaved(old(credentials), load)
    {
      if credentials.None? {
        credentials := Loaded(load);
      }
      if credentials.None? {
        list := [];
      } else {
        list := credentials.value;
      }
    }

    /**
     * `add_credentials`: nothing happens while the list is `null`; otherwise the first
     * entry for the same server is updated in place, or the entry is appended.
     */
    method AddCredentials(c: Credentials)
      modifies this
      ensures old(credentials).None? ==> credentials.None?
      ensures old(credentials).Some? ==> credentials == Some(Upsert(old(credentials).value, c))
    {
      if credentials.None? {
        return;
      }
      var list := credentials.value;
      var i := 0;
      while i < |list|
        invariant 0 <= i <= |list|
        invariant credentials == Some(list)
        invariant forall j :: 0 <= j < i ==> list[j].server != c.server
      {
        if list[i].server == c.server {
          UpsertExisting(list, c, i);
          credentials := Some(list[i := list[i].(token := c.token, expires := c.expires)]);
          return;
        }
        i := i + 1;
      }
      credentials := Some(list + [c]);
    }

    /** `remove_credentials`: nothing happens while the list is `null`. */
    method RemoveCredentials(server: string)
      modifies this
      ensures old(credentials).None? ==> credentials.None?
      ensures old(credentials).Some? ==> credentials == Some(WithoutServer(old(credentials).value, server))
    {
      if credentials.None? {
        return;
      }
      credentials := Some(WithoutServer(credentials.value, server));
    }
  }
}

=== FILE: depot.dfy ===
/**
 * The device registry of `device.rs`: the uniform device capability (the `Bioreactor`
 * trait, as a closed variant over the two device kinds) and `DeviceDepot`, a map from
 * device id to device whose key set is fixed when it is built.
 */
module Depot {
  import opened Wrappers
  import opened Device
  import opened Config
  import opened TestBioreactor
  import opened NetworkBioreactor

  /** What a device reports about itself through the capability interface. */
  datatype DeviceSnapshot = DeviceSnapshot(
    id: string,
    name: string,
    description: Option<string>,
    current: DeviceStatus,
    target: DeviceStatus,
    extra: Option<string>)

  /** `BioreactorDevice`: a boxed device of one of the two kinds. */
  datatype BioreactorDevice = Test(test: TestReactor) | Network(net: NetworkReactor) {

    function GetId(): string {
      match this
      case Test(t) => t.GetId()
      case Network(n) => n.GetId()
    }

    function GetName(): string {
      match this
      case Test(t) => t.GetName()
      case Network(n) => n.GetName()
    }

    function GetDescription(): Option<string> {
      match this
      case Test(t) => t.GetDescription()
      case Network(n) => n.GetDescription()
    }

    /** The objects holding this device's mutable state. */
    ghost function Repr(): set<object> {
      match this
      case Test(t) => {t}
      case Network(n) => {n, n.state}
    }

    ghost predicate Valid()
      reads Repr()
    {
      match this
      case Test(t) => t.Valid()
      case Network(n) => n.Valid()
    }

    function GetCurrentStatus(): DeviceStatus
      reads Repr()
    {
      match this
      case Test(t) => t.GetCurrentStatus()
      case Network(n) => n.GetCurrentStatus()
    }

    function GetTargetStatus(): DeviceStatus
      reads Repr()
    {
      match this
      case Test(t) => t.GetTargetStatus()
      case Network(n) => n.GetTargetStatus()
    }

    function GetCurrentStatusExtra(): Option<string>
      reads Repr()
    {
      match this
      case Test(t) => t.GetCurrentStatusExtra()
      case Network(n) => n.GetCurrentStatusExtra()
    }

    function Snapshot(): DeviceSnapshot
      reads Repr()
    {
      DeviceSnapshot(GetId(), GetName(), GetDescription(), GetCurrentStatus(), GetTargetStatus(),
        GetCurrentStatusExtra())
    }

    /**
     * `set_target_status`, for either kind of device: `Offline` is always refused, a
     * device that is `Offline` refuses everything, a refused request changes nothing
     * visible, and an accepted one becomes the target.
     */
    method SetTargetStatus(s: DeviceStatus) returns (r: Result<(), string>)
      modifies Repr()
      ensures s == Offline ==> r == Failure(OFFLINE_NOT_PERMITTED)
      ensures old(Valid()) ==> (r.Success? <==> s != Offline && old(GetCurrentStatus()) != Offline)
      ensures r.Failure? ==> Snapshot() == old(Snapshot())
      ensures r.Success? ==> GetTargetStatus() == s
      ensures r.Success? && Test? ==> GetCurrentStatus() == s
      ensures old(Valid()) ==> Valid()
    {
      match this {
        case Test(t) => r := t.SetTargetStatus(s);
        case Network(n) => r := n.SetTargetStatus(s);
      }
    }
  }

  /** The objects of all the devices in `devices`. */
  ghost function AllRepr(devices: map<string, BioreactorDevice>): set<object> {
    set id, o | id in devices && o in devices[id].Repr() :: o
  }

  /** `DeviceDepot`: every device under the id it reports. */
  datatype DeviceDepot = DeviceDepot(devices: map<string, BioreactorDevice>) {

    /** Each device is stored under its own id. */
    ghost predicate Keyed() {
      forall id :: id in devices ==> devices[id].GetId() == id
    }

    /** No two entries share state; in the source each device is a separately owned box. */
    ghost predicate Disjoint() {
      forall id1, id2 :: id1 in devices && id2 in devices && id1 != id2 ==>
        devices[id1].Repr() !! devices[id2].Repr()
    }

    /** `DeviceDepot::new`: each device is inserted under its own id, in input order. */
    static function New(ds: seq<BioreactorDevice>): (d: DeviceDepot)
      ensures d.Keyed()
      decreases |ds|
    {
      if ds == [] then DeviceDepot(map[])
      else
        var last := ds[|ds| - 1];
        DeviceDepot(New(ds[..|ds| - 1]).devices[last.GetId() := last])
    }

    /**
     * `device_ids`: every key once, in the map's iteration order (which the source leaves
     * unspecified, so any order is allowed here).
     */
    method DeviceIds() returns (ids: seq<string>)
      ensures forall i, j :: 0 <= i < j < |ids| ==> ids[i] != ids[j]
      ensures forall id :: id in ids <==> id in devices
      ensures |ids| == |devices|
    {
      ids := [];
      var rest := devices.Keys;
      while rest != {}
        invariant rest <= devices.Keys
        invariant forall id :: id in ids <==> id in devices && id !in rest
        invariant forall i, j :: 0 <= i < j < |ids| ==> ids[i] != ids[j]
        invariant |ids| + |rest| == |devices|
        decreases rest
      {
        var id :| id in rest;
        ids := ids + [id];
        rest := rest - {id};
      }
    }

    /** `get_device`: the device stored under `id`, or `None` for an unknown id. */
    function GetDevice(id: string): (r: Option<BioreactorDevice>)
      ensures r.None? <==> id !in devices
      ensures r.Some? ==> r.value == devices[id]
      ensures Keyed() && r.Some? ==> r.value.GetId() == id
    {
      if id in devices then Some(devices[id]) else None
    }

    /**
     * `get_device_mut`: like `get_device`, and writing through the result touches no
     * other entry's state.
     */
    function GetDeviceMut(id: string): (r: Option<BioreactorDevice>)
      ensures r.None? <==> id !in devices
      ensures r.Some? ==> r.value == devices[id]
      ensures Disjoint() && r.Some? ==>
        forall other :: other in devices && other != id ==> devices[other].Repr() !! r.value.Repr()
    {
      if id in devices then Some(devices[id]) else None
    }

    /**
     * A status request routed through the depot: `get_device_mut` and then
     * `set_target_status` on what it returns. Unknown ids give `None`; no other
     * device changes, and the depot's entries are the same afterwards.
     */
    method SetTargetStatusOf(id: string, s: DeviceStatus) returns (r: Option<Result<(), string>>)
      requires Disjoint()
      modifies AllRepr(devices)
      ensures r.None? <==> id !in devices
      ensures r.None? ==> forall k :: k in devices ==> devices[k].Snapshot() == old(devices[k].Snapshot())
      ensures r.Some? && s == Offline ==> r.value == Failure(OFFLINE_NOT_PERMITTED)
      ensures r.Some? && old(devices[id].Valid()) ==>
        (r.value.Success? <==> s != Offline && old(devices[id].GetCurrentStatus()) != Offline)
      ensures r.Some? && r.value.Failure? ==> devices[id].Snapshot() == old(devices[id].Snapshot())
      ensures r.Some? && old(devices[id].Valid()) ==> devices[id].Valid()
      ensures r.Some? && r.value.Success? ==> devices[id].GetTargetStatus() == s
      ensures r.Some? && r.value.Success? && devices[id].Test? ==> devices[id].GetCurrentStatus() == s
      ensures forall k :: k in devices && k != id ==> devices[k].Snapshot() == old(devices[k].Snapshot())
    {
      match GetDeviceMut(id) {
        case None =>
          r := None;
        case Some(device) =>
          var result := device.SetTargetStatus(s);
          r := Some(result);
      }
    }
  }

  /** The depot's keys are exactly the ids of the devices it was built from. */
  lemma {:induction false} NewKeys(ds: seq<BioreactorDevice>)
    ensures forall id :: id in DeviceDepot.New(ds).devices <==> exists i :: 0 <= i < |ds| && ds[i].GetId() == id
    decreases |ds|
  {
    if ds != [] {
      var init := ds[..|ds| - 1];
      NewKeys(init);
      forall id | id in DeviceDepot.New(ds).devices
        ensures exists i :: 0 <= i < |ds| && ds[i].GetId() == id
      {
        if id != ds[|ds| - 1].GetId() {
          var i :| 0 <= i < |init| && init[i].GetId() == id;
          assert ds[i] == init[i];
        }
      }
      forall id | exists i :: 0 <= i < |ds| && ds[i].GetId() == id
        ensures id in DeviceDepot.New(ds).devices
      {
        var i :| 0 <= i < |ds| && ds[i].GetId() == id;
        if i < |init| {
          assert init[i] == ds[i];
        }
      }
    }
  }

  /** When ids repeat, the last device with that id is the one kept. */
  lemma {:induction false} NewKeepsLast(ds: seq<BioreactorDevice>, i: nat)
    requires i < |ds|
    requires forall j :: i < j < |ds| ==> ds[j].GetId() != ds[i].GetId()
    ensures ds[i].GetId() in DeviceDepot.New(ds).devices
    ensures DeviceDepot.New(ds).devices[ds[i].GetId()] == ds[i]
    decreases |ds|
  {
    if i < |ds| - 1 {
      var init := ds[..|ds| - 1];
      assert init[i] == ds[i];
      NewKeepsLast(init, i);
    }
  }

  /**
   * With unique ids, nothing is lost: the depot has one entry per input device, and
   * each device is found under its own id.
   */
  lemma {:induction false} NewOfUniqueIds(ds: seq<BioreactorDevice>)
    requires forall i, j :: 0 <= i < j < |ds| ==> ds[i].GetId() != ds[j].GetId()
    ensures |DeviceDepot.New(ds).devices| == |ds|
    ensures forall i :: 0 <= i < |ds| ==>
      ds[i].GetId() in DeviceDepot.New(ds).devices && DeviceDepot.New(ds).devices[ds[i].GetId()] == ds[i]
    decreases |ds|
  {
    if ds != [] {
      var init := ds[..|ds| - 1];
      NewOfUniqueIds(init);
      NewKeys(init);
      var last := ds[|ds| - 1];
      assert forall i :: 0 <= i < |init| ==> init[i] == ds[i];
      assert last.GetId() !in DeviceDepot.New(init).devices;
      forall i | 0 <= i < |ds|
        ensures ds[i].GetId() in DeviceDepot.New(ds).devices && DeviceDepot.New(ds).devices[ds[i].GetId()] == ds[i]
      {
        NewKeepsLast(ds, i);
      }
    }
  }

  /**
   * Two test devices "a" and "b": setting "a" to `Active` makes it `Active`/`Active`
   * and leaves "b" `Inactive`/`Inactive`.
   */
  method TwoTestDevices() {
    var a := new TestReactor.FromConfig(TestReactorConfig(DeviceMetadata("a", "A", None)));
    var b := new TestReactor.FromConfig(TestReactorConfig(DeviceMetadata("b", "B", None)));
    var ds := [Test(a), Test(b)];
    var depot := DeviceDepot.New(ds);
    NewKeepsLast(ds, 0);
    NewKeepsLast(ds, 1);
    NewKeys(ds);
    assert forall id :: id in depot.devices ==> id == "a" || id == "b";
    assert depot.devices == map["a" := Test(a), "b" := Test(b)];
    assert Test(a).Valid() && Test(a).GetCurrentStatus() == Inactive;
    var r := depot.SetTargetStatusOf("a", Active);
    assert r.Some?;
    assert r.value.Success?;
    assert a.GetCurrentStatus() == Active && a.GetTargetStatus() == Active;
    assert b.GetCurrentStatus() == Inactive && b.GetTargetStatus() == Inactive;
  }
}

=== FILE: device.dfy ===
/**
 * The high-level status every bioreactor device reports (`device.rs`).
 *
 * `Offline` means the device cannot be reached; it is never a status a client may
 * request, only one the hub itself reports. `Inactive` means connected with all
 * instruments off, `Active` means the device is working.
 */
module Device {

  datatype DeviceStatus = Offline | Inactive | Active

  /** The error text both device kinds give when a client asks for `Offline`. */
  const OFFLINE_NOT_PERMITTED: string := "Setting device status to `Offline` is not permitted."
}

=== FILE: htu21d.dfy ===
/**
 * Decoding a raw HTU21D temperature reading, as the HiFive1 example firmware does
 * (`example_hifive/src/main.rs`). The sensor answers with three bytes: the
 * measurement's high byte, its low byte whose two lowest bits are status bits, and a
 * checksum.
 */
module Htu21d {
  import opened Wrappers

  const ADDRESS: bv8 := 0x40
  const CMD_MEASURE_TEMPERATURE: bv8 := 0xE3
  const CMD_MEASURE_HUMIDITY: bv8 := 0xE5
  const CMD_MEASURE_TEMPERATURE_ASYNC: bv8 := 0xF3
  const CMD_MEASURE_HUMIDITY_ASYNC: bv8 := 0xF5
  const CMD_READ_REGISTER: bv8 := 0xE6
  const CMD_WRITE_REGISTER: bv8 := 0xE7
  const CMD_RESET: bv8 := 0xFE

  const STATUS_MASK: bv8 := 0x3
  const STATUS_TEMPERATURE: bv8 := 0x0
  const STATUS_HUMIDITY: bv8 := 0x1

  /** The `[u8; 3]` buffer an I2C read fills. */
  type Reading = r: seq<bv8> | |r| == 3 witness [0, 0, 0]

  /** The status bits: the two lowest bits of the second byte. */
  function Status(result: Reading): (s: bv8)
    ensures s as int == result[1] as int % 4
  {
    result[1] & STATUS_MASK
  }

  /**
   * The 16-bit measurement: the first byte is its high byte and the second byte, with
   * the status bits cleared, its low byte. The `u16` addition cannot overflow: the
   * largest value is 0xFF00 + 0xFC = 0xFFFC.
   */
  function Measurement(result: Reading): (m: bv16)
    ensures m as int == result[0] as int * 256 + result[1] as int - result[1] as int % 4
    ensures m <= 0xFFFC
    ensures m & 0x3 == 0
    ensures m >> 8 == result[0] as bv16
    ensures (m & 0xFF) as bv8 == result[1] & !STATUS_MASK
  {
    Assemble(result[0], result[1])
  }

  /** `(u16::from(msb) << 8) + u16::from(lsb & !STATUS_MASK)`. */
  function Assemble(msb: bv8, lsb: bv8): (m: bv16)
    ensures m as int == msb as int * 256 + lsb as int - lsb as int % 4
    ensures m <= 0xFFFC
    ensures m & 0x3 == 0
    ensures m >> 8 == msb as bv16
    ensures (m & 0xFF) as bv8 == lsb & !STATUS_MASK
  {
    var high := (msb as bv16) << 8;
    var low := (lsb & !STATUS_MASK) as bv16;
    HighByteValue(msb);
    LowByteValue(lsb);
    SumFits(msb, lsb);
    high + low
  }

  lemma HighByteValue(x: bv8)
    ensures ((x as bv16) << 8) as int == x as int * 256
  {
  }

  lemma LowByteValue(y: bv8)
    ensures (y & !STATUS_MASK) as int == y as int - y as int % 4
    ensures ((y & !STATUS_MASK) as bv16) as int == (y & !STATUS_MASK) as int
  {
  }

  lemma SumFits(x: bv8, y: bv8)
    ensures var m := ((x as bv16) << 8) + ((y & !STATUS_MASK) as bv16);
      && m as int == ((x as bv16) << 8) as int + ((y & !STATUS_MASK) as bv16) as int
      && m <= 0xFFFC && m & 0x3 == 0 && m >> 8 == x as bv16
      && (m & 0xFF) as bv8 == y & !STATUS_MASK
  {
  }

  /**
   * Lines 92-98 of the firmware: a reading is accepted only when its status bits say
   * "temperature"; the firmware aborts otherwise (here: `None`).
   */
  function DecodeTemperature(result: Reading): (r: Option<bv16>)
    ensures r.Some? <==> result[1] as int % 4 == 0
    ensures r.Some? ==> r.value == Measurement(result)
  {
    if Status(result) != STATUS_TEMPERATURE then None else Some(Measurement(result))
  }
}

=== FILE: network_bioreactor.dfy ===
/**
 * `NetworkReactor` (`network_bioreactor.rs`): a device reached over a TCP socket.
 *
 * The reactor shares a `DeviceInfo` block with a background listener thread. The
 * thread is modelled as a phase (where the thread is blocked or sleeping) and one
 * step per wake-up; the outcome of each `accept` and of the initial `bind` are
 * inputs. Interleavings of the thread with request-layer calls are sequences of
 * `Event`s, and the invariants below hold for every such sequence.
 */
module NetworkBioreactor {
  import opened Wrappers
  import opened Device
  import opened Config
  import opened Strings

  /** Values changed through the API but not yet sent to the physical device. */
  datatype DeviceDataItem = TargetStatus

  /** The content of one `DeviceInfo` block. */
  datatype InfoView = InfoView(
    aborted: bool,
    status: DeviceStatus,
    target: DeviceStatus,
    extra: Option<string>,
    toUpdate: set<DeviceDataItem>)

  /** `DeviceInfo::new`. */
  const INITIAL_INFO: InfoView := InfoView(false, Offline, Inactive, None, {})

  const OFFLINE_DEVICE: string := "Cannot set status of a device which is `Offline`."
  const NOT_INITIALIZED: string := "Device not initialized."
  const WAITING: string := "Waiting for a connection."
  const CONNECTING: string := "Connecting..."

  /** `Ipv4Addr`'s `Display`: four decimal octets separated by dots. */
  function AddressText(addr: Ipv4Addr): (r: string)
    ensures ':' !in r
    ensures Split(r, '.') == [NatToString(addr.a as nat), NatToString(addr.b as nat),
                              NatToString(addr.c as nat), NatToString(addr.d as nat)]
  {
    var a, b, c, d := NatToString(addr.a as nat), NatToString(addr.b as nat),
                      NatToString(addr.c as nat), NatToString(addr.d as nat);
    NoDotInDigits(a);
    NoDotInDigits(b);
    NoDotInDigits(c);
    NoDotInDigits(d);
    SplitDotted(a, b, c, d);
    a + "." + (b + "." + (c + "." + d))
  }

  /** Four dot-free pieces joined by dots split back into those four. */
  lemma SplitDotted(a: string, b: string, c: string, d: string)
    requires '.' !in a && '.' !in b && '.' !in c && '.' !in d
    ensures Split(a + "." + (b + "." + (c + "." + d)), '.') == [a, b, c, d]
  {
    var cd := c + ['.'] + d;
    var bcd := b + ['.'] + cd;
    var abcd := a + ['.'] + bcd;
    SplitJoined(c, '.', d);
    assert Split(cd, '.') == [c, d];
    SplitAtFirst(b, '.', cd);
    assert Split(bcd, '.') == [b, c, d];
    SplitAtFirst(a, '.', bcd);
    assert Split(abcd, '.') == [a, b, c, d];
  }

  lemma NoDotInDigits(s: string)
    requires AllDigits(s)
    ensures '.' !in s && ':' !in s
  {
    assert forall i :: 0 <= i < |s| ==> IsDigit(s[i]);
  }

  const BIND_FAILED_PREFIX: string := "Cannot open socket on "
  const SOCKET_ERROR_PREFIX: string := "Socket error `"
  const SOCKET_ERROR_SUFFIX: string := "`. Waiting for a new connection."

  /**
   * The diagnostic set when the socket cannot be bound: the address, a `:`, the port
   * and the I/O error's debug text in parentheses.
   */
  function BindFailedText(config: NetworkReactorConfig, error: string): (r: string)
    ensures |r| == |BIND_FAILED_PREFIX| + |AddressText(config.address)| + 1
                   + |NatToString(config.port as nat)| + 2 + |error| + 2
    ensures r[..|BIND_FAILED_PREFIX|] == BIND_FAILED_PREFIX
    ensures r[|BIND_FAILED_PREFIX|..|BIND_FAILED_PREFIX| + |AddressText(config.address)|]
              == AddressText(config.address)
    ensures r[|BIND_FAILED_PREFIX| + |AddressText(config.address)|] == ':'
    ensures r[|BIND_FAILED_PREFIX| + |AddressText(config.address)| + 1
              ..|BIND_FAILED_PREFIX| + |AddressText(config.address)| + 1 + |NatToString(config.port as nat)|]
              == NatToString(config.port as nat)
    ensures r[|r| - |error| - 4..|r| - |error| - 2] == " ("
    ensures r[|r| - |error| - 2..|r| - 2] == error
    ensures r[|r| - 2..] == ")."
  {
    BIND_FAILED_PREFIX + AddressText(config.address) + ":" + NatToString(config.port as nat)
      + " (" + error + ")."
  }

  /** The diagnostic set when `accept` fails: the I/O error's debug text, quoted. */
  function SocketErrorText(error: string): (r: string)
    ensures |r| == |SOCKET_ERROR_PREFIX| + |error| + |SOCKET_ERROR_SUFFIX|
    ensures r[..|SOCKET_ERROR_PREFIX|] == SOCKET_ERROR_PREFIX
    ensures r[|SOCKET_ERROR_PREFIX|..|r| - |SOCKET_ERROR_SUFFIX|] == error
    ensures r[|r| - |SOCKET_ERROR_SUFFIX|..] == SOCKET_ERROR_SUFFIX
  {
    SOCKET_ERROR_PREFIX + error + SOCKET_ERROR_SUFFIX
  }

  /**
   * Every diagnostic the reactor writes tells its situation apart from the others:
   * not initialised, bind failure, waiting, socket error, connecting.
   */
  lemma DiagnosticsDistinct(config: NetworkReactorConfig, bindError: string, acceptError: string)
    ensures |{NOT_INITIALIZED, BindFailedText(config, bindError), WAITING,
              SocketErrorText(acceptError), CONNECTING}| == 5
  {
    var b, e := BindFailedText(config, bindError), SocketErrorText(acceptError);
    assert b[0] == 'C' && b[1] == 'a';
    assert e[0] == 'S';
    assert NOT_INITIALIZED[0] == 'D' && WAITING[0] == 'W' && CONNECTING[1] == 'o';
  }

  /**
   * `DeviceInfo::set_device_target_status`: the target becomes `s`, and the target is
   * marked pending exactly when it changed. The pending set only grows and, being a
   * set, holds the mark at most once.
   */
  function WithTarget(v: InfoView, s: DeviceStatus): (w: InfoView)
    ensures w.target == s
    ensures v.toUpdate <= w.toUpdate
    ensures TargetStatus in w.toUpdate <==> TargetStatus in v.toUpdate || v.target != s
    ensures w.(target := v.target, toUpdate := v.toUpdate) == v
  {
    var pending := if v.target != s then v.toUpdate + {TargetStatus} else v.toUpdate;
    v.(target := s, toUpdate := pending)
  }

  /** Setting the same target twice is the same as setting it once. */
  lemma WithTargetIdempotent(v: InfoView, s: DeviceStatus)
    ensures WithTarget(WithTarget(v, s), s) == WithTarget(v, s)
  {
  }

  /**
   * `NetworkReactor::set_target_status`: `Offline` is refused first, then any request
   * while the device is `Offline`; otherwise the target is recorded. A refused
   * request changes nothing.
   */
  function SetTarget(v: InfoView, s: DeviceStatus): (out: (Result<(), string>, InfoView))
    ensures s == Offline ==> out.0 == Failure(OFFLINE_NOT_PERMITTED)
    ensures s != Offline && v.status == Offline ==> out.0 == Failure(OFFLINE_DEVICE)
    ensures out.0.Success? <==> s != Offline && v.status != Offline
    ensures out.0.Failure? ==> out.1 == v
    ensures out.0.Success? ==> out.1 == WithTarget(v, s)
  {
    if s == Offline then (Failure(OFFLINE_NOT_PERMITTED), v)
    else if v.status == Offline then (Failure(OFFLINE_DEVICE), v)
    else (Success(()), WithTarget(v, s))
  }

  /** Where the listener thread is. */
  datatype Phase =
    | LoopTop    // at the head of the outer connection loop
    | Accepting  // blocked in `accept`
    | Backoff    // sleeping one second after a failed `accept`
    | Connected  // holding a connection, polling the abort flag every second
    | Stopped    // the thread has returned (or was never a listener: bind failed)

  datatype BindOutcome = Bound | BindFailed(error: string)
  datatype AcceptOutcome = Accepted | AcceptFailed(error: string)

  datatype ReactorView = ReactorView(phase: Phase, info: InfoView)

  /**
   * State right after `NetworkReactor::from_config`: on a bind failure the device is
   * `Offline` for good with the failure explained; otherwise the listener is about
   * to start and the diagnostic still says the device is not initialised.
   */
  function Initial(config: NetworkReactorConfig, bind: BindOutcome): (r: ReactorView)
    ensures r.info.status == Offline && r.info.target == Inactive
    ensures !r.info.aborted && r.info.toUpdate == {}
    ensures bind.BindFailed? ==> r.phase == Stopped && r.info.extra == Some(BindFailedText(config, bind.error))
    ensures bind.Bound? ==> r.phase == LoopTop && r.info.extra == Some(NOT_INITIALIZED)
  {
    match bind
    case BindFailed(e) => ReactorView(Stopped, INITIAL_INFO.(extra := Some(BindFailedText(config, e))))
    case Bound => ReactorView(LoopTop, INITIAL_INFO.(extra := Some(NOT_INITIALIZED)))
  }

  /**
   * One wake-up of the listener thread of `start_listener`. The only status it ever
   * writes is `Offline`; it never touches the abort flag, the target or the pending
   * set; it returns only from the connected loop and only once the abort flag is set.
   */
  function Step(r: ReactorView, accept: AcceptOutcome): (r': ReactorView)
    ensures r'.info.aborted == r.info.aborted
    ensures r'.info.target == r.info.target && r'.info.toUpdate == r.info.toUpdate
    ensures r'.info.status == r.info.status || r'.info.status == Offline
    ensures r'.phase == Stopped && r.phase != Stopped ==> r.phase == Connected && r.info.aborted
    ensures r.phase == Connected && r.info.aborted ==> r'.phase == Stopped
    ensures r.phase == Stopped ==> r' == r
    ensures r.phase == LoopTop ==>
      r'.phase == Accepting && r'.info.status == Offline && r'.info.extra == Some(WAITING)
    ensures r.phase == Accepting && accept.Accepted? ==>
      r'.phase == Connected && r'.info.extra == Some(CONNECTING)
    ensures r.phase == Accepting && accept.AcceptFailed? ==>
      r'.phase == Backoff && r'.info.extra == Some(SocketErrorText(accept.error))
    ensures r.phase == Accepting ==> r'.info.status == r.info.status
    ensures r.phase == Backoff ==> r' == r.(phase := LoopTop)
    ensures r.phase == Connected && !r.info.aborted ==> r' == r
  {
    match r.phase
    case LoopTop => ReactorView(Accepting, r.info.(status := Offline, extra := Some(WAITING)))
    case Accepting =>
      if accept.Accepted? then ReactorView(Connected, r.info.(extra := Some(CONNECTING)))
      else ReactorView(Backoff, r.info.(extra := Some(SocketErrorText(accept.error))))
    case Backoff => ReactorView(LoopTop, r.info)
    case Connected => if r.info.aborted then ReactorView(Stopped, r.info) else r
    case Stopped => r
  }

  /** What can happen to one network reactor: a listener wake-up, a status request, an abort. */
  datatype Event = Listener(accept: AcceptOutcome) | Request(target: DeviceStatus) | AbortRequest

  function Apply(r: ReactorView, e: Event): ReactorView {
    match e
    case Listener(a) => Step(r, a)
    case Request(s) => ReactorView(r.phase, SetTarget(r.info, s).1)
    case AbortRequest => ReactorView(r.phase, r.info.(aborted := true))
  }

  function Run(r: ReactorView, events: seq<Event>): ReactorView
    decreases |events|
  {
    if events == [] then r else Run(Apply(r, events[0]), events[1..])
  }

  /** The state every network reactor keeps: `Offline`, target `Inactive`, nothing pending. */
  ghost predicate Quiet(r: ReactorView) {
    r.info.status == Offline && r.info.target == Inactive && r.info.toUpdate == {}
  }

  lemma {:induction false} RunKeepsQuiet(r: ReactorView, events: seq<Event>)
    requires Quiet(r)
    ensures Quiet(Run(r, events))
    decreases |events|
  {
    if events != [] {
      RunKeepsQuiet(Apply(r, events[0]), events[1..]);
    }
  }

  /**
   * Since nothing ever sets a status other than `Offline`, a network reactor refuses
   * every status request, whatever happened since it was built.
   */
  lemma EveryRequestRefused(config: NetworkReactorConfig, bind: BindOutcome, events: seq<Event>, s: DeviceStatus)
    ensures Run(Initial(config, bind), events).info.status == Offline
    ensures SetTarget(Run(Initial(config, bind), events).info, s).0.Failure?
  {
    RunKeepsQuiet(Initial(config, bind), events);
  }

  /** The abort flag is monotonic: once set, it stays set. */
  lemma {:induction false} AbortSticks(r: ReactorView, events: seq<Event>)
    requires r.info.aborted
    ensures Run(r, events).info.aborted
    decreases |events|
  {
    if events != [] {
      AbortSticks(Apply(r, events[0]), events[1..]);
    }
  }

  /** The listener stops only after an abort was requested, and once stopped stays stopped. */
  lemma {:induction false} StopsOnlyAfterAbort(r: ReactorView, events: seq<Event>)
    ensures r.phase == Stopped ==> Run(r, events).phase == Stopped
    ensures Run(r, events).phase == Stopped && r.phase != Stopped ==> Run(r, events).info.aborted
    decreases |events|
  {
    if events != [] {
      var next := Apply(r, events[0]);
      StopsOnlyAfterAbort(next, events[1..]);
      if next.info.aborted {
        AbortSticks(next, events[1..]);
      }
    }
  }

  /** After a failed bind the device stays `Offline` with the bind failure as its diagnostic. */
  lemma {:induction false} BindFailureIsPermanent(config: NetworkReactorConfig, error: string, events: seq<Event>)
    ensures Run(Initial(config, BindFailed(error)), events).phase == Stopped
    ensures Run(Initial(config, BindFailed(error)), events).info.status == Offline
    ensures Run(Initial(config, BindFailed(error)), events).info.extra == Some(BindFailedText(config, error))
  {
    var r := Initial(config, BindFailed(error));
    StoppedRunKeepsExtra(r, events);
    RunKeepsQuiet(r, events);
  }

  lemma {:induction false} StoppedRunKeepsExtra(r: ReactorView, events: seq<Event>)
    requires r.phase == Stopped
    ensures Run(r, events).phase == Stopped && Run(r, events).info.extra == r.info.extra
    decreases |events|
  {
    if events != [] {
      StoppedRunKeepsExtra(Apply(r, events[0]), events[1..]);
    }
  }

  /**
   * The listener checks the abort flag only while connected: an aborted listener still
   * waits for the next connection, and stops at the first poll after it.
   */
  lemma AbortTakesEffectOnceConnected(r: ReactorView, e: string)
    requires r.phase == Accepting && r.info.aborted
    ensures Run(r, [Listener(AcceptFailed(e))]).phase == Backoff
    ensures Run(r, [Listener(Accepted), Listener(Accepted)]).phase == Stopped
  {
    assert Run(r, [Listener(AcceptFailed(e))]) == Step(r, AcceptFailed(e));
    var c := Step(r, Accepted);
    assert Run(r, [Listener(Accepted), Listener(Accepted)]) == Run(c, [Listener(Accepted)]);
    assert Run(c, [Listener(Accepted)]) == Step(c, Accepted);
  }

  /** `DeviceInfo`: the state block shared by a reactor and its listener thread. */
  class DeviceInfo {
    var abortFlag: bool
    var status: DeviceStatus
    var targetStatus: DeviceStatus
    var statusExtra: Option<string>
    var toUpdate: set<DeviceDataItem>

    function View(): InfoView
      reads this
    {
      InfoView(abortFlag, status, targetStatus, statusExtra, toUpdate)
    }

    constructor ()
      ensures View() == INITIAL_INFO
    {
      abortFlag := false;
      status := Offline;
      targetStatus := Inactive;
      statusExtra := None;
      toUpdate := {};
    }

    method SetDeviceStatus(s: DeviceStatus)
      modifies this
      ensures View() == old(View()).(status := s)
    {
      status := s;
    }

    function GetDeviceStatus(): DeviceStatus
      reads this
    {
      status
    }

    function GetDeviceTargetStatus(): DeviceStatus
      reads this
    {
      targetStatus
    }

    method SetDeviceTargetStatus(s: DeviceStatus)
      modifies this
      ensures View() == WithTarget(old(View()), s)
    {
      var oldStatus := targetStatus;
      targetStatus := s;
      if oldStatus != s {
        toUpdate := toUpdate + {TargetStatus};
      }
    }

    method SetDeviceStatusExtra(message: string)
      modifies this
      ensures View() == old(View()).(extra := Some(message))
    {
      statusExtra := Some(message);
    }

    method ClearDeviceStatusExtra()
      modifies this
      ensures View() == old(View()).(extra := None)
    {
      statusExtra := None;
    }

    function GetDeviceStatusExtra(): Option<string>
      reads this
    {
      statusExtra
    }

    function IsAborted(): bool
      reads this
    {
      abortFlag
    }

    method SetAborted()
      modifies this
      ensures View() == old(View()).(aborted := true)
    {
      abortFlag := true;
    }
  }

  class NetworkReactor {
    const metadata: DeviceMetadata
    const state: DeviceInfo
    /** Where the listener thread is; `Stopped` once it has returned. */
    var listener: Phase

    function View(): ReactorView
      reads this, state
    {
      ReactorView(listener, state.View())
    }

    ghost predicate Valid()
      reads this, state
    {
      Quiet(View())
    }

    /**
     * `NetworkReactor::from_config`, with the outcome of binding the listening socket as
     * an input. A failed bind leaves a reactor that is `Offline` for good.
     */
    constructor FromConfig(config: NetworkReactorConfig, bind: BindOutcome)
      ensures fresh(state)
      ensures metadata == config.meta
      ensures View() == Initial(config, bind)
      ensures Valid()
    {
      metadata := config.meta;
      var info := new DeviceInfo();
      info.SetDeviceStatusExtra(NOT_INITIALIZED);
      match bind {
        case BindFailed(e) =>
          info.SetDeviceStatus(Offline);
          info.SetDeviceStatusExtra(BindFailedText(config, e));
          listener := Stopped;
        case Bound =>
          listener := LoopTop;
      }
      state := info;
    }

    /** One wake-up of the listener thread; `accept` is what `accept` returns if it is called. */
    method ListenerStep(accept: AcceptOutcome)
      modifies this, state
      ensures View() == Step(old(View()), accept)
      ensures old(Valid()) ==> Valid()
    {
      match listener {
        case LoopTop =>
          state.SetDeviceStatus(Offline);
          state.SetDeviceStatusExtra(WAITING);
          listener := Accepting;
        case Accepting =>
          match accept {
            case Accepted =>
              state.SetDeviceStatusExtra(CONNECTING);
              listener := Connected;
            case AcceptFailed(e) =>
              state.SetDeviceStatusExtra(SocketErrorText(e));
              listener := Backoff;
          }
        case Backoff =>
          listener := LoopTop;
        case Connected =>
          if state.IsAborted() {
            listener := Stopped;
          }
        case Stopped =>
      }
    }

    /** `NetworkReactor::abort`, up to the join: raises the abort flag and changes nothing else. */
    method Abort()
      modifies state
      ensures state.View() == old(state.View()).(aborted := true)
      ensures old(Valid()) ==> Valid()
    {
      state.SetAborted();
    }

    function GetId(): string {
      metadata.id
    }

    function GetName(): string {
      metadata.name
    }

    function GetDescription(): Option<string> {
      metadata.description
    }

    function GetCurrentStatus(): DeviceStatus
      reads state
    {
      state.GetDeviceStatus()
    }

    function GetCurrentStatusExtra(): Option<string>
      reads state
    {
      state.GetDeviceStatusExtra()
    }

    function GetTargetStatus(): DeviceStatus
      reads state
    {
      state.GetDeviceTargetStatus()
    }

    /** `set_target_status`: see `SetTarget`; on a valid reactor every request is refused. */
    method SetTargetStatus(target: DeviceStatus) returns (r: Result<(), string>)
      modifies state
      ensures (r, state.View()) == SetTarget(old(state.View()), target)
      ensures old(Valid()) ==> r.Failure? && Valid()
    {
      if target == Offline {
        r := Failure(OFFLINE_NOT_PERMITTED);
      } else if state.GetDeviceStatus() == Offline {
        r := Failure(OFFLINE_DEVICE);
      } else {
        state.SetDeviceTargetStatus(target);
        r := Success(());
      }
    }
  }
}

=== FILE: strings.dfy ===
/**
 * The pieces of Rust's string handling that the hub's token format relies on:
 * `format!("{}", n)` for a `u64`, `str::parse::<u64>` and `str::split(char)`.
 */
module Strings {
  import opened Wrappers

  const U64_LIMIT: nat := 0x1_0000_0000_0000_0000

  predicate IsDigit(c: char) {
    '0' <= c <= '9'
  }

  function DigitValue(c: char): (d: nat)
    requires IsDigit(c)
    ensures d < 10
  {
    (c as int) - ('0' as int)
  }

  function DigitChar(d: nat): (c: char)
    requires d < 10
    ensures IsDigit(c) && DigitValue(c) == d
  {
    (('0' as int) + d) as char
  }

  predicate AllDigits(s: string) {
    forall i :: 0 <= i < |s| ==> IsDigit(s[i])
  }

  /** The number a run of decimal digits denotes, most significant digit first (0 for no digits). */
  function DigitsValue(s: string): nat
    requires AllDigits(s)
  {
    if |s| == 0 then 0 else DigitsValue(s[..|s| - 1]) * 10 + DigitValue(s[|s| - 1])
  }

  /** `n.to_string()`: the shortest decimal rendering, no sign, no leading zero. */
  function NatToString(n: nat): (s: string)
    ensures |s| >= 1 && AllDigits(s)
    ensures DigitsValue(s) == n
    ensures |s| > 1 ==> s[0] != '0'
  {
    if n < 10 then [DigitChar(n)]
    else
      var prefix := NatToString(n / 10);
      var s := prefix + [DigitChar(n % 10)];
      assert s[..|s| - 1] == prefix;
      s
  }

  /**
   * `s.parse::<u64>()`: an optional single `+`, then one or more decimal digits,
   * and a value below 2^64; anything else is an error.
   */
  function ParseU64(s: string): (r: Option<nat>)
    ensures r.Some? ==> r.value < U64_LIMIT
    ensures r.Some? ==>
      (|s| >= 1 && AllDigits(s) && r.value == DigitsValue(s))
      || (|s| >= 2 && s[0] == '+' && AllDigits(s[1..]) && r.value == DigitsValue(s[1..]))
    ensures |s| >= 1 && AllDigits(s) && DigitsValue(s) < U64_LIMIT ==> r == Some(DigitsValue(s))
    ensures |s| >= 2 && s[0] == '+' && AllDigits(s[1..]) && DigitsValue(s[1..]) < U64_LIMIT ==>
      r == Some(DigitsValue(s[1..]))
  {
    var digits := if |s| > 0 && s[0] == '+' then s[1..] else s;
    if |digits| == 0 || !AllDigits(digits) then None
    else
      var v := DigitsValue(digits);
      if v < U64_LIMIT then Some(v) else None
  }

  lemma ParseRendered(n: nat)
    requires n < U64_LIMIT
    ensures ParseU64(NatToString(n)) == Some(n)
  {
  }


  /** `s.split(sep).collect()`: the pieces between occurrences of `sep`; always at least one. */
  function Split(s: string, sep: char): (parts: seq<string>)
    ensures |parts| >= 1
    decreases |s|
  {
    if |s| == 0 then [""]
    else
      var rest := Split(s[1..], sep);
      if s[0] == sep then [""] + rest
      else [[s[0]] + rest[0]] + rest[1..]
  }

  /** A string without the separator is one piece. */
  lemma {:induction false} SplitNoSep(s: string, sep: char)
    requires sep !in s
    ensures Split(s, sep) == [s]
    decreases |s|
  {
    if |s| > 0 {
      assert sep !in s[1..];
      SplitNoSep(s[1..], sep);
      assert [s[0]] + s[1..] == s;
    }
  }

  /** The first separator ends the first piece. */
  lemma {:induction false} SplitAtFirst(a: string, sep: char, b: string)
    requires sep !in a
    ensures Split(a + [sep] + b, sep) == [a] + Split(b, sep)
    decreases |a|
  {
    if |a| == 0 {
      assert a + [sep] + b == [sep] + b;
      assert ([sep] + b)[1..] == b;
    } else {
      var s := a + [sep] + b;
      assert s[0] == a[0];
      assert s[1..] == a[1..] + [sep] + b;
      assert sep !in a[1..];
      SplitAtFirst(a[1..], sep, b);
      assert [a[0]] + a[1..] == a;
    }
  }

  /** Joining two separator-free strings with one separator splits back into exactly those two. */
  lemma SplitJoined(a: string, sep: char, b: string)
    requires sep !in a && sep !in b
    ensures Split(a + [sep] + b, sep) == [a, b]
  {
    SplitAtFirst(a, sep, b);
    SplitNoSep(b, sep);
  }
}

=== FILE: test_bioreactor.dfy ===
/**
 * `TestReactor` (`test_bioreactor.rs`): a virtual device with no connection.
 * Its one mutable field, `status`, serves as both the current and the target status.
 */
module TestBioreactor {
  import opened Wrappers
  import opened Device
  import opened Config

  class TestReactor {
    const metadata: DeviceMetadata
    var status: DeviceStatus

    /** A test reactor is never `Offline`: it starts `Inactive` and refuses `Offline`. */
    ghost predicate Valid()
      reads this
    {
      status != Offline
    }

    /** `TestReactor::from_config`. */
    constructor FromConfig(config: TestReactorConfig)
      ensures metadata == config.meta
      ensures status == Inactive
      ensures Valid()
    {
      metadata := config.meta;
      status := Inactive;
    }

    function GetId(): string {
      metadata.id
    }

    function GetName(): string {
      metadata.name
    }

    function GetDescription(): Option<string> {
      metadata.description
    }

    function GetCurrentStatus(): DeviceStatus
      reads this
    {
      status
    }

    /** A test reactor has no diagnostic text. */
    function GetCurrentStatusExtra(): (r: Option<string>)
      ensures r.None?
    {
      None
    }

    /** The target is always the current status: both read the one `status` field. */
    function GetTargetStatus(): (s: DeviceStatus)
      reads this
      ensures s == GetCurrentStatus()
    {
      status
    }

    /**
     * `set_target_status`: `Offline` is refused and nothing changes; any other
     * status becomes current and target at once.
     */
    method SetTargetStatus(target: DeviceStatus) returns (r: Result<(), string>)
      modifies this
      ensures target == Offline ==> r == Failure(OFFLINE_NOT_PERMITTED) && status == old(status)
      ensures target != Offline ==> r.Success? && GetCurrentStatus() == target && GetTargetStatus() == target
      ensures old(Valid()) ==> Valid()
    {
      if target == Offline {
        r := Failure(OFFLINE_NOT_PERMITTED);
      } else {
        status := target;
        r := Success(());
      }
    }
  }
}

=== FILE: wrappers.dfy ===
/** Option and Result, the shapes Rust's `Option<T>` and `Result<T, E>` take in this model. */
module Wrappers {

  datatype Option<+T> = None | Some(value: T)

  datatype Result<+T, +E> = Success(value: T) | Failure(error: E)
}
